=== FILE: README.md ===
# BuzzNet in Dafny

BuzzNet is a small social network: an Express/Mongoose backend (accounts,
JWT-protected posting, likes, an error handler, a CORS policy), a second
stand-alone serverless API over the MongoDB driver, and a React frontend
that lists, creates, likes and comments on posts, with a local fallback when
the backend is unreachable. This project models the decision logic of those
pieces as pure Dafny functions over immutable records. It covers the backend
handlers over `map<Id, _>` collections, and the frontend handlers and
reducers over lists, `localStorage` (a string map) and replies received as
inputs. It then proves what the code promises, or fails to promise, about
them.

Conventions shared by all modules:

- A backend handler returns an `Outcome`: `Sent(status, body)`, or
  `Raised(status, error)`, where `status` is `res.statusCode` at the throw.
  `Server.Finish` passes a raised error through `errorHandler`, giving what
  the client receives.
- bcrypt and JWT are uninterpreted functions (`Crypto.Primitives`). The
  lemmas that need them take `Crypto.Sound` as a precondition, which states
  only these properties:
  - `compare(p, hash(p, s))` holds.
  - A token verifies to its id before `iat + ttl` seconds and to nothing
    afterwards.
  - Tokens are non-empty and contain no space.
- JSON values are `Json.JVal`, with JavaScript truthiness and `String()`
  coercion.
- `JSON.stringify` and `JSON.parse` of the offline post list are
  uninterpreted. Lemmas that need them take the round-trip predicate
  `Storage.Sound` as a precondition.
- Clocks, fresh ids, salts, `navigator.onLine`, the signed-in user and every
  network reply are parameters.

Layout, one module per file:

- `wrappers`, `text`, `json`, `crypto`, `storage`, `http`: shared
  vocabulary. This covers trimming, lowercasing, substring search,
  `split(' ')[1]`, and decimal rendering with its inverse.
- `server` (backend/index.js), `user_model` (User.js), `user_controller`,
  `auth_middleware`, `listing` (the newest-first sort), `post_model`
  (Post.js), `post_controller`, `serverless_api` (backend/api/index.js).
- `posts_context`, `post_item`, `post_list`, `post_form`, `comment_form`,
  `login`, `post_detail`: one module per frontend file.
- `flows`: facts that join two files. These are the frontend's request as
  the backend reads it, and the storage one page writes as another reads
  it.

## Model

| member | source | states |
|---|---|---|
| Text.Trim | backend/models/User.js:13 | the trimmed string neither starts nor ends with whitespace, is no longer than the input, and is empty iff the input is all whitespace |
| Text.TrimIsSlice | backend/models/User.js:13 | what `trim` keeps is one contiguous slice of the input, and only whitespace lies before and after that slice |
| Text.TrimOfTrimmed | backend/models/User.js:13 | a string that neither starts nor ends with whitespace is unchanged by `trim` |
| Text.TrimIdempotent | backend/models/Post.js:41 | trimming a trimmed string changes nothing |
| Text.IndexOf | frontend/src/contexts/PostsContext.jsx:142 | the search returns the first position holding the element, and nothing exactly when the element is absent |
| Text.ToLower | backend/models/User.js:19 | lowercasing keeps the length and maps each character, leaving no upper-case letter |
| Text.ContainsIff | frontend/src/components/PostForm.jsx:113 | `includes` holds iff the substring occurs at some index |
| Text.SecondFieldOfJoin | backend/middleware/authMiddleware.js:30 | `split(' ')[1]` of `word + " " + token` is the token when neither part holds a space |
| Text.NatToStringRoundTrip | frontend/src/components/PostItem.jsx:17 | the decimal text of a count reads back as that count |
| Text.NatToStringInjective | frontend/src/components/PostItem.jsx:17 | distinct counts render as distinct digit strings |
| Json.ToJsString | frontend/src/components/Login.jsx:33 | `String(x)` of `undefined` is "undefined" and of a string is the string itself |
| Crypto.Seconds | backend/controllers/userController.js:12-13 | the JWT clock is the millisecond clock floored to whole seconds |
| Server.ErrorHandler | backend/index.js:135-177 | status is at least 400. A ValidationError gives 400 with the message "Validation Failed" and one entry per failing path, and takes precedence over code 11000. Code 11000 gives 400. When the error names a duplicated field, the answer carries that first field as `field` and the message "Duplicate field value entered: <field> '<value>' already exists."; when it names none, there is no `field` and both names read "undefined". Otherwise the status is `res.statusCode` if at least 400, else 500, and an empty message becomes the generic text. The stack is null in production on every branch |
| Server.DuplicateResponse | backend/index.js:159-167 | a duplicate-key error gives 400 naming the first duplicated field as `field` and in the message with its value. With no field named, there is no `field` and the message reads "undefined" twice |
| Server.WithStack | backend/index.js:154-175 | `stack` is null in production. Outside production it is absent when the error carries none. No other field is touched |
| Server.Finish | backend/index.js:181 | a sent response passes unchanged, and a raised error always reaches the client with a status of at least 400 |
| Server.ValidationBeforeDuplicate | backend/index.js:147-159 | an error that is both a ValidationError and code 11000 is answered as a validation failure |
| Server.RaisedStatusKept | backend/index.js:144-173 | a plain error thrown after `res.status(s)` with `s >= 400` reaches the client with status `s` and its own message |
| Server.CorsPolicy | backend/index.js:47-65 | outside production every origin is allowed; in production exactly a missing origin and the ten listed ones are |
| UserModel.ParseRole | backend/models/User.js:32-36 | only "user" and "admin" are roles |
| UserModel.RoleRoundTrip | backend/models/User.js:34-35 | every role names itself as "user" or "admin" and parses back |
| UserModel.NormalizeEmail | backend/models/User.js:19-20 | the stored email has no upper-case letter and no whitespace at either end |
| UserModel.NormalizeEmailIdempotent | backend/models/User.js:19-20 | normalising a normalised email changes nothing |
| UserModel.NormalFormFixed | backend/models/User.js:19-20 | a lower-case string with no whitespace at its ends is already normal |
| UserModel.TwoAtSignsInvalid | backend/models/User.js:21-24 | an address with two `@` never matches the address pattern |
| UserModel.Validate | backend/models/User.js:10-31 | validation passes iff the trimmed name is non-empty, the normalised email matches the pattern, and the password has at least 6 characters; a short password and a malformed address each report their own message |
| UserModel.PreSave | backend/models/User.js:47-60 | an unmodified password is left alone; a modified one is replaced by its hash, and the plaintext then matches |
| UserModel.NoDoubleHashing | backend/models/User.js:49-51 | after any number of further saves that leave the password alone, the stored hash is still that of the first plaintext and still matches it |
| UserModel.SaveRepeatedlyKeeps | backend/models/User.js:49-51 | saves that do not modify the password leave the user unchanged |
| UserModel.Create | backend/models/User.js:8-42 | creation fails iff validation fails. A created user has the trimmed name, the normalised valid email, role "user", equal timestamps, and a password hash that matches the plaintext |
| UserModel.ToJson | backend/models/User.js:30 | `password` appears in a user document iff it was selected; the role is "user" or "admin" |
| UserModel.FindByEmail | backend/controllers/userController.js:79 | a lookup finds the stored user whose email is the normalised query, and reports none only when no stored email equals it. Registration looks users up the same way at line 33 |
| UserController.GenerateToken | backend/controllers/userController.js:7-15 | it fails with the configuration error iff the secret is unset or empty. Otherwise it returns a token that verifies to exactly the given id for 60 seconds from issue, and to nothing afterwards |
| UserController.Admit | backend/controllers/userController.js:41-59 | the user is stored before the token is made. A missing secret leaves it stored but raises after `res.status(201)` |
| UserController.RegisterUser | backend/controllers/userController.js:20-64 | missing fields give 400 and change nothing. With all fields present, a known email gives exactly 400 "User already exists with this email" and changes nothing. A stored user has the fresh id, the normalised email, role "user" and a matching password. With all fields present and a fresh address, a body the schema refuses raises the ValidationError carrying exactly `Validate`'s messages, stores nothing and reaches the client as 400, whether or not the id is taken. Only a valid body with a taken id gets the duplicate-key error. Only a body that passes `Validate` is ever stored. Success is 201 whose fields are exactly `_id`, `username`, `email`, `token`, `createdAt` and `updatedAt`, with the token verifying to the new id |
| UserController.RegisterSucceeds | backend/controllers/userController.js:20-64 | with all fields present and passing the schema, a fresh address and id, and the secret set, registration stores the user and answers 201 |
| UserController.RegisterBody | backend/controllers/userController.js:50-59 | the registration response has neither password nor role |
| UserController.LoginUser | backend/controllers/userController.js:69-99 | missing fields give 400. An unknown email and a wrong password give the identical 401. A matching password with the secret set gives 200 carrying the user's id, username, role and a token for that id |
| UserController.NoUserEnumeration | backend/controllers/userController.js:82-98 | unknown address and wrong password reach the client as the same 401 response |
| UserController.RegisterThenLogin | backend/controllers/userController.js:20-99 | after a successful registration, logging in with the same password and any spelling of the address succeeds, for the new id with role "user" |
| UserController.GetUserProfile | backend/controllers/userController.js:104-120 | a missing user gives 404 "User not found"; otherwise the profile is the user's document without the password |
| AuthMiddleware.Protect | backend/middleware/authMiddleware.js:23-61 | a missing or non-Bearer header gives 401 "no token provided". The handler runs iff the second header field verifies to a stored user's id, and then `req.user` is that user without password. Every other failure is 401 "token failed or invalid" |
| AuthMiddleware.BearerWithoutSpace | backend/middleware/authMiddleware.js:27-34 | "Bearer" glued to its token passes the prefix test but is refused as an invalid token |
| AuthMiddleware.IssuedTokenLifetime | backend/middleware/authMiddleware.js:34-54 | an issued token admits its stored user until the next whole second plus one minute. It is refused afterwards, and a deleted user gets the same generic message as a bad token |
| AuthMiddleware.NoBearerNoNext | backend/middleware/authMiddleware.js:27-59 | without a Bearer header the handler never runs and the client sees 401 |
| Listing.Insert | backend/controllers/postController.js:14 | inserting into a newest-first list keeps it newest-first, and the result is the old list plus the new element as a multiset |
| Listing.NewestFirst | backend/controllers/postController.js:14 | the listing holds every stored document exactly once, in non-increasing `createdAt` order |
| PostModel.ValidateComment | backend/models/Post.js:8-18 | a comment is valid iff it has a user and non-empty text |
| PostModel.NewComment | backend/models/Post.js:14-18 | a stored comment's text is trimmed, and it is valid iff it has a user and its text is not all whitespace |
| PostModel.ValidatePost | backend/models/Post.js:35-82 | a post is valid iff the title and content are non-empty, there is an author, likes and commentCount are at least 0, and every comment is valid; negative likes report the `min` message |
| PostModel.Create | backend/models/Post.js:38-76 | creation fails iff the title is all whitespace, the content is empty or the author is missing. A created post has the trimmed title, the content unchanged, likes 0, commentCount 0, no likers and no comments |
| PostModel.ToJson | backend/models/Post.js:35-82 | a post document carries its `_id` and its `likes` count |
| PostController.GetPosts | backend/controllers/postController.js:9-18 | status 200 with every stored post once, newest first |
| PostController.GetPost | backend/controllers/postController.js:23-33 | an absent id gives exactly 404 "Post not found"; a present one gives that post |
| PostController.CreatePost | backend/controllers/postController.js:38-86 | missing title or content gives 400, checked before the user: a missing user id then gives 401. A created post's author is the authenticated user, never a body field, and the answer is 201. Failures store nothing; stored posts stay valid |
| PostController.Insert | backend/controllers/postController.js:72-82 | the schema validators run first: a blank title or empty content raises the ValidationError with nothing stored. Only a valid post with a taken `_id` is refused as a duplicate key, and creation succeeds iff the title is not blank, the content not empty and the id free |
| PostController.UpdatePost | backend/controllers/postController.js:91-109 | update validators run before the lookup: a blank title or empty content raises a ValidationError with those messages and changes nothing. An absent id then gives 404 and changes nothing. A change touches only that post's title (trimmed), content and `updatedAt`, with no ownership test |
| PostController.DeletePost | backend/controllers/postController.js:114-127 | an absent id gives 404 and changes nothing. Otherwise, whoever calls, exactly that post is removed and its id is echoed |
| PostController.LikePost | backend/controllers/postController.js:132-149 | an absent id gives 404; otherwise exactly that post's likes rise by 1, `likedBy` is untouched, and all other posts are unchanged |
| PostController.LikesAccumulate | backend/controllers/postController.js:135-139 | n like requests raise the count by exactly n, whoever sends them |
| PostController.MissingPostNotFound | backend/controllers/postController.js:27-30 | all four id-taking handlers answer 404 "Post not found" for an absent id and leave the collection as it was. The other three checks sit at lines 101-104, 119-122 and 142-145 |
| ServerlessApi.ListPosts | backend/api/index.js:42-54 | a working connection lists every document once, newest first; a failed one gives 500 with the error's message |
| ServerlessApi.CreatePost | backend/api/index.js:57-82 | a missing title, content or author gives 400 before any database access. A stored document has likes 0 and the author from the body, and the answer is 201. With the fields present, a connection failure or a taken id gives 500 with the error's message and stores nothing |
| ServerlessApi.DeletePost | backend/api/index.js:85-99 | the id denotes the document stored under its lower-case spelling, as `new ObjectId` reads hex in either case. A deleted document gives the success message, and nothing deleted gives 404. A malformed id or a connection failure gives 500 with the error's message |
| ServerlessApi.LikePost | backend/api/index.js:102-122 | the id is read as `new ObjectId` reads it, in either hex case. A found document's likes rise by exactly 1 and nothing else changes; absent gives 404 |
| ServerlessApi.Key | backend/api/index.js:88 | the stored `_id` an id string denotes is canonical (24 hex digits, no upper-case letter) and differs from the input only in upper-case letters |
| ServerlessApi.KeyIgnoresCase | backend/api/index.js:88 | two spellings that differ only in hex-letter case denote the same document, and a canonical id denotes itself |
| ServerlessApi.HandlersIgnoreCase | backend/api/index.js:108 | deleting and liking answer the same and leave the same collection for two spellings of one id |
| ServerlessApi.EveryDatabaseRouteFails | backend/api/index.js:16-34 | as written, creating (with all fields present), deleting and liking all answer 500 "client is not defined". `ListPosts` does the same for this connection |
| ServerlessApi.CreateLikeDelete | backend/api/index.js:57-122 | with a working connection, a created post likes to 1 and then deletes, restoring the collection, after which liking it gives 404 |
| PostsContext.Find | frontend/src/contexts/PostsContext.jsx:142 | `find` yields a post with the id iff one exists |
| PostsContext.LikePost | frontend/src/contexts/PostsContext.jsx:125-167 | no-op offline or signed out. A user not yet among the likers is appended once and likes rise by 1 on every post with that id, whose other fields are kept as the `...p` spread keeps them. Other posts, unlikes and `unlikedBy` are never touched |
| PostsContext.UnlikePost | frontend/src/contexts/PostsContext.jsx:169-199 | the mirror of liking on `unlikedBy`/`unlikes`: on the target only those two change. Unlike liking, it does not check for a user and throws when signed out |
| PostsContext.LikeIdempotent | frontend/src/contexts/PostsContext.jsx:145 | a second like by the same user changes nothing |
| PostsContext.LikeThenUnlike | frontend/src/contexts/PostsContext.jsx:146-181 | after a like and an unlike the user is in both `likedBy` and `unlikedBy` |
| PostsContext.AddPost | frontend/src/contexts/PostsContext.jsx:76-123 | online and offline alike, a new post goes to the front with zero counters and empty lists. Offline its id is the clock text. A missing user throws |
| PostsContext.AddComment | frontend/src/contexts/PostsContext.jsx:201-233 | offline it does nothing and is the only way it finishes. Online without a user it throws the TypeError. Online with a user, the `serverTimestamp()` inside `arrayUnion` is refused and the call throws with the list unchanged |
| PostsContext.AddCommentCorrected | frontend/src/contexts/PostsContext.jsx:201-233 | with a client timestamp: offline it does nothing, a missing user or a rejected write throws, and an accepted write appends the comment after the existing ones on the target post only |
| PostsContext.CorrectedCommentFound | frontend/src/contexts/PostsContext.jsx:217-226 | after an accepted corrected comment, `find` on the id gives the same post with the new comment last |
| PostsContext.FromDoc | frontend/src/contexts/PostsContext.jsx:51-64 | missing arrays become empty and missing counters 0 |
| PostsContext.Fetch | frontend/src/contexts/PostsContext.jsx:46-74 | a successful query maps every document in order; a failed one keeps the list; loading ends |
| PostsContext.BareDocIsFresh | frontend/src/contexts/PostsContext.jsx:55-88 | a fetched document without counters or arrays reads exactly as a freshly added post |
| PostItem.FormatDate | frontend/src/components/PostItem.jsx:8-31 | buckets by absolute distance: minutes below 60 minutes, hours (at least 1, below 24) below a day, days (at least 1, below 7) below a week, the absolute date otherwise |
| PostItem.Render | frontend/src/components/PostItem.jsx:16-21 | the text is the count, a space, the unit and "ago" |
| PostItem.RenderReadsBack | frontend/src/components/PostItem.jsx:17-21 | the leading digits read back as the count, and the unit is singular exactly when the count is 1 |
| PostItem.RenderInjective | frontend/src/components/PostItem.jsx:16-21 | two different relative ages never render alike |
| PostItem.PastAndFutureAlike | frontend/src/components/PostItem.jsx:11 | dates equally far in the future and the past get the same label |
| PostItem.Shown | frontend/src/components/PostItem.jsx:41-47 | collapsed text over 150 characters shows exactly its first 150 and "..."; otherwise the text is shown unchanged |
| PostItem.Toggle | frontend/src/components/PostItem.jsx:6 | toggling flips the expanded flag |
| PostItem.ToggleRoundTrip | frontend/src/components/PostItem.jsx:6-54 | toggling twice restores the view. Short text looks the same either way, and a long text's two views differ unless it is exactly 153 characters ending in "..." |
| PostList.Fetch | frontend/src/components/PostList.jsx:32-70 | success shows the server list and clears error and mock flag. Failure shows non-empty stored posts, else the two sample posts, setting the mock flag. An unreadable store only ends loading |
| PostList.MockPosts | frontend/src/components/PostList.jsx:7-24 | two sample posts, ids "1" and "2", with 5 and 3 likes, the second a day older |
| PostList.HandleLike | frontend/src/components/PostList.jsx:72-97 | in mock mode the matching posts gain one like with no request. Online, the matching posts are replaced by the reply; a failed reply changes nothing. Other posts never change |
| PostList.MockLikesAccumulate | frontend/src/components/PostList.jsx:75-79 | n likes in mock mode raise the count by n |
| PostList.Render | frontend/src/components/PostList.jsx:99-129 | loading first. Then an error with the mock flag shows the sample list and an error without it shows alone. With no error, an empty list shows "No posts found" |
| PostList.FetchAlwaysShowsPosts | frontend/src/components/PostList.jsx:45-116 | after the first fetch the page never shows the spinner or a bare error. It is empty exactly when the server sent nothing or the store is unreadable |
| Storage.SavedRoundTrip | frontend/src/components/PostForm.jsx:131-132 | a list written with `JSON.stringify` reads back unchanged |
| PostForm.StatusMessage | frontend/src/components/PostForm.jsx:71-91 | 401 gives the server's message or the session-expired text; other statuses give the server's message, else "Server error: N", else "Error: N" when the body is unreadable or null |
| PostForm.Catch | frontend/src/components/PostForm.jsx:109-144 | an error is saved offline iff its lowercased message lacks "unauthorized" and either the browser is offline or the message has "failed to fetch". The post is appended to `buzznetOfflinePosts` and the form reset; an unreadable list throws. Otherwise only the error is shown |
| PostForm.TempPost | frontend/src/components/PostForm.jsx:122-129 | an offline post has a `temp_` id, likes 0, `isOffline`, and the display name or "Unknown User (Offline)" |
| PostForm.Submit | frontend/src/components/PostForm.jsx:31-145 | a missing field or a missing token sets an error and sends nothing. A sent payload is exactly the title and content with the stored token. Success resets the form and hands over the server post. Storage changes only by an offline save. `isSubmitting` ends false |
| PostForm.OfflineSaveAppends | frontend/src/components/PostForm.jsx:131-132 | an offline save reads back as the old list plus the new post at its end |
| PostForm.SessionExpiryNotSavedOffline | frontend/src/components/PostForm.jsx:79-113 | the default 401 text is never saved offline |
| CommentForm.Submit | frontend/src/components/CommentForm.jsx:11-31 | blank text gives "Comment cannot be empty", checked before the online test. `onSubmit` gets the untrimmed text. Success clears the box; failure keeps the text and sets the error |
| CommentForm.ButtonMatchesHandler | frontend/src/components/CommentForm.jsx:15-48 | `onSubmit` is called iff the button is enabled (online and text not blank) |
| CommentForm.RetryKeepsText | frontend/src/components/CommentForm.jsx:26-30 | a failed submit leaves the same text ready to send again |
| Login.BuildRequest | frontend/src/components/Login.jsx:20-23 | register mode posts `name`, `email` and `password` to the register endpoint; login mode posts `email` and `password` to the login endpoint; the email is the username and "@test.com" |
| Login.Failure | frontend/src/components/Login.jsx:29-30 | a non-OK reply fails with the server's message or "Operation failed" |
| Login.Submit | frontend/src/components/Login.jsx:15-40 | success stores the token and `String(data.name)` and nothing else; failure stores nothing and shows the message; loading ends false |
| Login.FailureKeepsSession | frontend/src/components/Login.jsx:30-33 | a failed attempt keeps a previously stored token |
| Login.CorrectedRequest | frontend/src/components/Login.jsx:22 | the register body keyed `username`, as the backend reads it |
| Login.SubmitCorrected | frontend/src/components/Login.jsx:32-33 | success stores the token, `data.username` and `data._id` |
| PostDetail.Loaded | frontend/src/pages/PostDetail.jsx:20-48 | missing counts show as 0. With a stored `userId` the flags say whether `likedBy`/`dislikedBy` hold it. A missing or null list gives `false`, and a list that is neither an array nor a string gives V8's TypeError naming the callee, `data.likedBy?.includes is not a function` (`likedBy` is checked first, then `dislikedBy`). Without a `userId` the flags keep their value. A failed load sets the error: the network message, "Failed to fetch post" for a non-OK status, the parse error's message for an unparsable OK body, and `Cannot read properties of null (reading 'likes')` for a `null` body, which is still stored as the post. Loading ends |
| PostDetail.NoUserIdNoFlags | frontend/src/pages/PostDetail.jsx:38-42 | with no stored `userId` neither flag is ever set |
| PostDetail.Begin | frontend/src/pages/PostDetail.jsx:52-60 | nothing is sent while an action is in flight or without a token; otherwise the in-flight flag is raised. The dislike handler does the same at lines 89-97 |
| PostDetail.Complete | frontend/src/pages/PostDetail.jsx:61-84 | the in-flight flag is cleared after every attempt; on success counts and flags come from the reply; failures alert. The dislike handler does the same at lines 98-121 |
| PostDetail.InFlightGuard | frontend/src/pages/PostDetail.jsx:52-89 | a second click during a sent action sends nothing, and after completion a new action can be sent |
| PostDetail.Render | frontend/src/pages/PostDetail.jsx:135-145 | loading first, then an error, then "Post not found" for a missing post |
| PostDetail.FailedLoadShowsError | frontend/src/pages/PostDetail.jsx:29-44 | a load that fails at the network or by status shows its error, which the page renders at lines 139-141 |
| Flows.PlainErrorReply | backend/index.js:172-176 | a 4xx plain error reaches the frontend as a non-OK reply carrying that message |
| Flows.RegisterFormAlwaysRejected | frontend/src/components/Login.jsx:22 | every registration from the form is refused with 400 and the missing-fields message, and nothing is stored on either side |
| Flows.CorrectedRegisterPassesFieldCheck | backend/controllers/userController.js:22-26 | with the body keyed `username`, a form with a name and password is not refused for missing fields |
| Flows.CorrectedFormKeepsSession | frontend/src/components/Login.jsx:29-34 | the corrected form, given any 201 answer that carries `_id` and `token`, logs in and keeps both |
| Flows.CorrectedRegisterStoresSession | frontend/src/components/Login.jsx:20-37 | with the body keyed `username`, a schema-valid registration under a fresh address, with the secret set, is stored and answered 201. The form then keeps the new id and a token that verifies to it |
| Flows.LoginStoresUndefinedName | frontend/src/components/Login.jsx:33 | after a successful login the stored username is the text "undefined" |
| Flows.CorrectedLoginStoresIdentity | backend/controllers/userController.js:85-93 | the corrected handler stores the account's own username and id |
| Flows.LikeFlagsNeverSet | frontend/src/pages/PostDetail.jsx:38 | no login writes `userId`, so the post page never marks a post as liked or disliked |
| Flows.CorrectedLikeFlagShown | frontend/src/pages/PostDetail.jsx:38-41 | after the corrected login, a post whose likers include the account shows as liked |
| Flows.OfflinePostsNotListed | frontend/src/components/PostList.jsx:52 | saving a post offline never changes the `buzznetPosts` entry the list falls back to |

## Left out

- Database connections and diagnostics: `backend/config/db.js`, the test scripts, `backend/api/mongo-test.js`, and the debug routes in both backends. The serverless connection is a parameter. `ServerlessApi.ConnectAsWritten` is what `connectToDatabase` yields as written.
- Route and middleware wiring: only `getPosts`, `createPost` (behind `protect`), `registerUser` and `loginUser` are mounted by the route files. The other handlers are modelled although nothing routes to them.
- bcrypt and JWT internals, and Mongoose's casting and validation machinery. The email pattern is a hand-written recogniser of `/^\w+([\.-]?\w+)*@\w+([\.-]?\w+)*(\.\w{2,3})+$/`.
- Firestore, `fetch`, `navigator.onLine`, `Date.now` and `localStorage` are inputs. `JSON.parse`/`JSON.stringify` are modelled only for the offline post list.
- Locale formatting: the `toLocaleDateString` branch of `formatDate` in PostItem and PostDetail is `PostItem.Absolute`, with no text.
- Presentation-only components (`Post.jsx`, `Profile.jsx`, `App.jsx`, `Home.jsx`) and all styling.
- Concurrency: the stale snapshot from which PostsContext computes `likes`, and database read-modify-write races. Each action is applied alone.
- Text: JavaScript strings are UTF-16 code units and `toLowerCase` folds all of Unicode. The model uses Dafny characters and folds ASCII letters only.
- Numbers: JSON numbers are `Json.JNum` integers. Fractions, NaN, infinities and the 2^53 limit of JavaScript numbers are not modelled, so counters and timestamps never round.
- Request bodies are maps from names to strings. Non-string JSON values in a body, and the casting Mongoose applies to them, are not modelled.
- PostController.GetPost, PostController.UpdatePost, PostController.DeletePost, PostController.LikePost: an id that is not a valid ObjectId makes Mongoose throw a CastError, which reaches the client as 500. The model treats every id as a key, so such an id gets 404.
- PostController.UpdatePost: only the `title` and `content` paths of the update body are modelled. Other paths, such as `likes` with its `min: 0` validator, are not applied.
- ServerlessApi.LikePost: `post.value` assumes the driver's `ModifyResult` shape. With newer driver defaults, `findOneAndUpdate` returns the document itself, which has no `value` field. That shape is not modelled.
- PostList.HandleLike and PostList.Fetch: list items are typed records. Non-numeric `likes` (where `likes + 1` concatenates or yields NaN) are not modelled.
- PostsContext.FromDoc: fields other than the counters and arrays are carried as given. Timestamps are integers rather than Firestore `Timestamp` objects.
- Login.Submit: the browser's `required` attribute, which keeps an empty form from submitting, happens before `handleSubmit` and is not modelled.
- Storage.Saved: a stored value that is valid JSON but not an array (a string would be spread character by character) counts as unreadable.

## Findings

| source | as written | input that shows it | evidently intended | confidence | as-written member | corrected member |
|---|---|---|---|---|---|---|
| backend/api/index.js:23 | `client.connect()` names a `client` that is never declared, so `connectToDatabase` always throws a ReferenceError and `cachedDb` is never set | any `DELETE /api/posts/:id`, or a create with title, content and author | a `MongoClient` built from `MONGO_URI`, with the handlers then acting on the collection | not executed | ServerlessApi.EveryDatabaseRouteFails | ServerlessApi.CreateLikeDelete |
| frontend/src/components/Login.jsx:22 | the register body sends `name`, but `registerUser` reads `username` (backend/controllers/userController.js:22,26) | register with username "amy", password "secret1" | the body keyed `username` | not executed | Flows.RegisterFormAlwaysRejected | Flows.CorrectedRegisterStoresSession |
| frontend/src/components/Login.jsx:33 | stores `data.name`, but the login response has no `name` field (backend/controllers/userController.js:85-93), so `localStorage.username` becomes "undefined" | a successful login as any stored user | store `data.username` | not executed | Flows.LoginStoresUndefinedName | Flows.CorrectedLoginStoresIdentity |
| frontend/src/contexts/PostsContext.jsx:210 | the comment passed to `arrayUnion` holds `createdAt: serverTimestamp()`. The Firestore SDK refuses that sentinel inside an array element, so `updateDoc` throws and `addComment` rethrows it | add any comment while online and signed in | stamp the stored comment with the client clock, as the local copy already is | not executed (rests on the Firestore SDK's documented refusal) | PostsContext.AddComment | PostsContext.AddCommentCorrected |
| frontend/src/pages/PostDetail.jsx:38 | reads `localStorage.userId`, which no part of the frontend writes, so `isLiked` and `isDisliked` never become true | log in, then open a post whose `likedBy` holds the account's id | login stores `data._id` as `userId` | not executed | Flows.LikeFlagsNeverSet | Flows.CorrectedLikeFlagShown |

The corrected members are separate definitions (`Login.CorrectedRequest` and
`Login.SubmitCorrected`, `PostsContext.AddCommentCorrected`, and the serverless handlers over a working
connection). The rest of the model keeps the code as written, so every other
row above describes BuzzNet as it stands.

=== FILE: auth_middleware.dfy ===
/** backend/middleware/authMiddleware.js: `protect`, the guard in front of
    the routes that need a logged-in user. */
module AuthMiddleware {
  import opened Wrappers
  import opened Text
  import opened Json
  import opened Server
  import opened UserModel
  import Crypto
  import UserController

  const NoToken := "Not authorized, no token provided or token is not Bearer type"
  const TokenFailed := "Not authorized, token failed or invalid"

  /** What `protect` did: called `next()` with `req.user` set to the
      stored user without its password, or threw. */
  datatype Guard =
    | Proceed(user: Object)
    | Rejected(outcome: Outcome)

  /** `jwt.verify(token, secret)` at second `now`: the library throws for a
      missing or empty token and for a missing or empty secret before it
      looks at the signature. */
  function JwtVerify(c: Crypto.Primitives, token: Option<string>, secret: Option<string>, now: int): (r: Option<Id>)
    ensures token.None? || token == Some("") || secret.None? || secret == Some("") ==> r.None?
  {
    if token.None? || token.value == "" || secret.None? || secret.value == "" then None
    else c.verify(token.value, secret.value, now)
  }

  /** `protect(req, res, next)` with `req.headers.authorization == header`. */
  function Protect(c: Crypto.Primitives, env: Env, users: map<Id, User>, header: Option<string>, nowMs: nat): (g: Guard)
    ensures (header.None? || !StartsWith(header.value, "Bearer")) <==>
      g == Rejected(Raised(401, PlainError(NoToken)))
    ensures g.Rejected? ==>
      g.outcome == Raised(401, PlainError(NoToken)) || g.outcome == Raised(401, PlainError(TokenFailed))
    ensures g.Proceed? <==>
      && header.Some? && StartsWith(header.value, "Bearer")
      && var id := JwtVerify(c, SecondField(header.value), env.jwtSecret, Crypto.Seconds(nowMs));
         id.Some? && id.value in users
    ensures g.Proceed? ==>
      var id := JwtVerify(c, SecondField(header.value), env.jwtSecret, Crypto.Seconds(nowMs)).value;
      g.user == ToJson(users[id], false) && "password" !in g.user
  {
    // an empty header is falsy and fails the same test
    if header.None? || !StartsWith(header.value, "Bearer") then
      Rejected(Raised(401, PlainError(NoToken)))
    else
      match JwtVerify(c, SecondField(header.value), env.jwtSecret, Crypto.Seconds(nowMs))
      case None => Rejected(Raised(401, PlainError(TokenFailed)))
      case Some(id) =>
        if id in users then Proceed(ToJson(users[id], false))
        // the "no longer exists" error is thrown inside the try and replaced
        else Rejected(Raised(401, PlainError(TokenFailed)))
  }

  /** "Bearer" glued to its token passes the prefix test, but the header
      then has no second field, so verification fails. */
  lemma BearerWithoutSpace(c: Crypto.Primitives, env: Env, users: map<Id, User>, token: string, nowMs: nat)
    requires ' ' !in token
    ensures Protect(c, env, users, Some("Bearer" + token), nowMs) == Rejected(Raised(401, PlainError(TokenFailed)))
  {
    assert StartsWith("Bearer" + token, "Bearer");
    assert ' ' !in "Bearer" + token;
  }

  /** A token issued by `generateToken` for a stored user admits that user
      for one minute and is refused from the following minute on; a user
      deleted meanwhile is refused with the same generic message as a bad
      token. */
  lemma {:induction false} IssuedTokenLifetime(c: Crypto.Primitives, env: Env, users: map<Id, User>, id: Id,
                                              issuedMs: nat, nowMs: nat)
    requires Crypto.Sound(c) && UserController.SecretSet(env)
    requires issuedMs <= nowMs
    ensures var token := UserController.GenerateToken(c, env, id, issuedMs).value;
            var g := Protect(c, env, users, Some("Bearer " + token), nowMs);
            && (nowMs < issuedMs - issuedMs % 1000 + 60000 && id in users ==>
                  g == Proceed(ToJson(users[id], false)))
            && (nowMs < issuedMs - issuedMs % 1000 + 60000 && id !in users ==>
                  g == Rejected(Raised(401, PlainError(TokenFailed))))
            && (nowMs >= issuedMs - issuedMs % 1000 + 60000 ==>
                  g == Rejected(Raised(401, PlainError(TokenFailed))))
  {
    var token := UserController.GenerateToken(c, env, id, issuedMs).value;
    var header := "Bearer " + token;
    assert StartsWith(header, "Bearer");
    SecondFieldOfJoin("Bearer", token);
    assert Crypto.Seconds(issuedMs) <= Crypto.Seconds(nowMs);
    assert Crypto.Seconds(nowMs) < Crypto.Seconds(issuedMs) + 60
       <==> nowMs < issuedMs - issuedMs % 1000 + 60000;
  }

  /** A missing header and a non-Bearer scheme never reach the handler. */
  lemma NoBearerNoNext(c: Crypto.Primitives, env: Env, users: map<Id, User>, nowMs: nat, scheme: string)
    requires !StartsWith(scheme, "Bearer")
    ensures Protect(c, env, users, None, nowMs).Rejected?
    ensures Protect(c, env, users, Some(scheme), nowMs).Rejected?
    ensures Finish(Protect(c, env, users, Some(scheme), nowMs).outcome, env).status == 401
  {
    RaisedStatusKept(NoToken, 401, env);
  }
}

=== FILE: comment_form.dfy ===
/** frontend/src/components/CommentForm.jsx: the comment box and its
    `handleSubmit`. Whether the `onSubmit` callback resolves is an input. */
module CommentForm {
  import opened Wrappers
  import opened Text

  datatype Box = Box(comment: string, error: string)

  const EmptyComment := "Comment cannot be empty"
  const MustBeOnline := "You need to be online to add a comment"
  const AddFailed := "Failed to add comment. Please try again."

  /** The state after a submit, and the text handed to `onSubmit` if it
      was called. */
  datatype Submitted = Submitted(box: Box, sent: Option<string>)

  /** `handleSubmit` with `isOnline == online`; `accepted` says whether
      `onSubmit` resolves. */
  function Submit(b: Box, online: bool, accepted: bool): (r: Submitted)
    ensures AllWhitespace(b.comment) ==> r == Submitted(b.(error := EmptyComment), None)
    ensures !AllWhitespace(b.comment) && !online ==> r == Submitted(b.(error := MustBeOnline), None)
    ensures r.sent.Some? <==> !AllWhitespace(b.comment) && online
    ensures r.sent.Some? ==> r.sent.value == b.comment
    ensures r.sent.Some? && accepted ==> r.box == Box("", "")
    ensures r.sent.Some? && !accepted ==> r.box == Box(b.comment, AddFailed)
  {
    if Trim(b.comment) == "" then Submitted(b.(error := EmptyComment), None)
    else if !online then Submitted(b.(error := MustBeOnline), None)
    else if accepted then Submitted(Box("", ""), Some(b.comment))
    else Submitted(Box(b.comment, AddFailed), Some(b.comment))
  }

  /** `disabled={!isOnline || !comment.trim()}` on the submit button. */
  predicate ButtonDisabled(b: Box, online: bool) {
    !online || Trim(b.comment) == ""
  }

  /** The button and the handler agree: `onSubmit` is called exactly when
      the button is enabled. Were the handler reached while the button is
      disabled (the field is a textarea, so Enter only adds a newline), it
      would only set an error. */
  lemma ButtonMatchesHandler(b: Box, online: bool, accepted: bool)
    ensures Submit(b, online, accepted).sent.Some? <==> !ButtonDisabled(b, online)
    ensures ButtonDisabled(b, online) ==>
      var r := Submit(b, online, accepted);
      r.box.comment == b.comment && r.box.error in {EmptyComment, MustBeOnline}
  {
  }

  /** The comment's text reaches `onSubmit` as typed, surrounding blanks
      and all; a rejected submit keeps it for another attempt. */
  lemma RetryKeepsText(b: Box, accepted: bool)
    requires !AllWhitespace(b.comment)
    ensures var first := Submit(b, true, false);
      && first.sent == Some(b.comment)
      && Submit(first.box, true, accepted).sent == Some(b.comment)
  {
  }
}

=== FILE: crypto.dfy ===
/** bcrypt and jsonwebtoken as uninterpreted primitives. The model never
    looks inside a hash or a token; everything it proves about them follows
    from the two laws collected in `Sound`. Times given to the token
    primitives are whole seconds, as jsonwebtoken counts them. */
module Crypto {
  import opened Wrappers

  datatype Primitives = Primitives(
    /** `bcrypt.hash(plain, salt)` */
    hash: (string, string) -> string,
    /** `bcrypt.compare(plain, hashed)` */
    compare: (string, string) -> bool,
    /** `jwt.sign({ id }, secret, { expiresIn })` issued at the given second */
    sign: (string, string, int, int) -> string,
    /** `jwt.verify(token, secret)` at the given second: the decoded `id`,
        or `None` where the library throws */
    verify: (string, string, int) -> Option<string>
  )

  /** bcrypt accepts the password a hash was made from; a token verifies
      under the secret that signed it, yielding the signed id, until its
      lifetime has run out, and is refused from then on. A token is
      non-empty base64url text with dots, so it holds no space. Nothing is assumed
      about other passwords (bcrypt truncates long inputs) or about other
      secrets. */
  ghost predicate Sound(c: Primitives) {
    && (forall plain, salt :: c.compare(plain, c.hash(plain, salt)))
    && (forall id, secret, issuedAt, lifetime, now ::
          c.verify(c.sign(id, secret, issuedAt, lifetime), secret, now)
          == if now < issuedAt + lifetime then Some(id) else None)
    && (forall id, secret, issuedAt, lifetime ::
          var t := c.sign(id, secret, issuedAt, lifetime); t != "" && ' ' !in t)
  }

  /** `Date.now()` in milliseconds, as jsonwebtoken turns it into seconds. */
  function Seconds(nowMs: nat): (r: nat)
    ensures r * 1000 <= nowMs < (r + 1) * 1000
  {
    nowMs / 1000
  }
}

=== FILE: flows.dfy ===
/** Facts that span files: what the frontend's requests meet in the
    backend, and what one page leaves in storage for another. Each lemma
    feeds one component's output to another's input, through
    `Server.Finish` where a backend outcome becomes an HTTP reply. */
module Flows {
  import opened Wrappers
  import opened Json
  import opened Server
  import opened Http
  import opened Storage
  import Crypto
  import Text
  import UserModel
  import UserController
  import Login
  import PostDetail
  import PostForm

  /** The reply the browser sees for a backend outcome. */
  function ReplyOf(o: Outcome, env: Env): (r: Reply)
    ensures r.Answered? && r.payload.Parsed?
    ensures o.Sent? ==> r == Answered(o.status, Parsed(o.body))
  {
    var resp := Finish(o, env);
    Answered(resp.status, Parsed(resp.body))
  }

  /** A 4xx error the backend raises with a plain message reaches the
      frontend as that message. */
  lemma PlainErrorReply(message: string, status: int, env: Env)
    requires 400 <= status < 500 && message != ""
    ensures var r := ReplyOf(Raised(status, PlainError(message)), env);
      && r.status == status && !Ok(r.status)
      && Truthy(MessageField(r.payload.v)) && ToJsString(MessageField(r.payload.v)) == message
  {
    RaisedStatusKept(message, status, env);
    var resp := Finish(Raised(status, PlainError(message)), env);
    assert resp.body.JObj? && "message" in resp.body.fields && resp.body.fields["message"] == JStr(message);
  }

  /** As written, the register form sends `name` where `registerUser` reads
      `username`: every registration from it is refused with 400 before the
      store is consulted, and the form shows that refusal. */
  lemma RegisterFormAlwaysRejected(c: Crypto.Primitives, env: Env, users: map<UserModel.Id, UserModel.User>,
                                   f: Login.LoginForm, store: Store, newId: UserModel.Id, salt: string, nowMs: nat)
    requires Crypto.Sound(c) && UserModel.Consistent(users) && f.isRegister
    ensures var step := UserController.RegisterUser(c, env, users, Login.BuildRequest(f).body, newId, salt, nowMs);
      && step == UserController.Step(users, Raised(400, PlainError(UserController.RegisterFieldsMissing)))
      && var shown := Login.Submit(f, store, ReplyOf(step.outcome, env));
      && !shown.loggedIn && shown.store == store
      && shown.form.error == UserController.RegisterFieldsMissing
  {
    assert "username" !in Login.BuildRequest(f).body;
    PlainErrorReply(UserController.RegisterFieldsMissing, 400, env);
  }

  /** With the corrected request, a registration with a name and password
      gets past the field check. */
  lemma CorrectedRegisterPassesFieldCheck(c: Crypto.Primitives, env: Env, users: map<UserModel.Id, UserModel.User>,
                                          f: Login.LoginForm, newId: UserModel.Id, salt: string, nowMs: nat)
    requires Crypto.Sound(c) && UserModel.Consistent(users) && f.isRegister
    requires f.username != "" && f.password != ""
    ensures var body := Login.CorrectedRequest(f).body;
      && Present(body, "username") && Present(body, "email") && Present(body, "password")
      && UserController.RegisterUser(c, env, users, body, newId, salt, nowMs).outcome
         != Raised(400, PlainError(UserController.RegisterFieldsMissing))
  {
    var body := Login.CorrectedRequest(f).body;
    assert body["username"] == f.username && body["password"] == f.password;
    assert body["email"] == f.username + Login.EmailDomain;
    assert Present(body, "username") && Present(body, "email") && Present(body, "password");
  }

  /** The corrected form keeps the id and token of any 201 answer that
      carries them. */
  lemma CorrectedFormKeepsSession(f: Login.LoginForm, store: Store, o: Outcome, env: Env, id: string, token: string)
    requires o.Sent? && o.status == 201 && o.body.JObj?
    requires "_id" in o.body.fields && o.body.fields["_id"] == JStr(id)
    requires "token" in o.body.fields && o.body.fields["token"] == JStr(token)
    ensures var shown := Login.SubmitCorrected(f, store, ReplyOf(o, env));
      shown.loggedIn && shown.store["userId"] == id && shown.store["token"] == token
  {
    var reply := ReplyOf(o, env);
    assert reply == Answered(201, Parsed(o.body));
    assert Login.Failure(reply).None?;
  }

  /** With the corrected request, a registration whose fields pass the
      schema, under a fresh address and with the secret set, is stored and
      answered 201; the form then keeps a token that admits the new user
      and the new user's id. */
  lemma CorrectedRegisterStoresSession(c: Crypto.Primitives, env: Env, users: map<UserModel.Id, UserModel.User>,
                                       f: Login.LoginForm, store: Store, newId: UserModel.Id, salt: string, nowMs: nat)
    requires Crypto.Sound(c) && UserModel.Consistent(users) && f.isRegister
    requires UserModel.Validate(f.username, f.username + Login.EmailDomain, f.password) == []
    requires UserModel.FindByEmail(users, f.username + Login.EmailDomain).None? && newId !in users
    requires UserController.SecretSet(env)
    ensures var step := UserController.RegisterUser(c, env, users, Login.CorrectedRequest(f).body, newId, salt, nowMs);
      && step.outcome.Sent? && step.outcome.status == 201
      && newId in step.users && step.users[newId].email == UserModel.NormalizeEmail(f.username + Login.EmailDomain)
      && var shown := Login.SubmitCorrected(f, store, ReplyOf(step.outcome, env));
      && shown.loggedIn
      && shown.store["userId"] == newId
      && c.verify(shown.store["token"], env.jwtSecret.value, Crypto.Seconds(nowMs)) == Some(newId)
  {
    var body := Login.CorrectedRequest(f).body;
    assert Present(body, "username") && Present(body, "email") && Present(body, "password") by {
      assert body["username"] == f.username && body["email"] == f.username + Login.EmailDomain;
      assert Text.Trim(f.username) != "" && |f.password| >= UserModel.MinPasswordLength;
    }
    UserController.RegisterSucceeds(c, env, users, body, newId, salt, nowMs);
    var o := UserController.RegisterUser(c, env, users, body, newId, salt, nowMs).outcome;
    CorrectedFormKeepsSession(f, store, o, env, newId, o.body.fields["token"].s);
  }

  /** As written, a successful login stores the username entry as the text
      "undefined": the login response has no `name` field. */
  lemma LoginStoresUndefinedName(c: Crypto.Primitives, env: Env, users: map<UserModel.Id, UserModel.User>,
                                 f: Login.LoginForm, store: Store, nowMs: nat)
    requires Crypto.Sound(c) && UserModel.Consistent(users)
    requires UserController.LoginUser(c, env, users, Login.BuildRequest(f).body, nowMs).Sent?
    ensures var o := UserController.LoginUser(c, env, users, Login.BuildRequest(f).body, nowMs);
      var shown := Login.Submit(f, store, ReplyOf(o, env));
      && shown.loggedIn && shown.store["username"] == "undefined"
  {
    var o := UserController.LoginUser(c, env, users, Login.BuildRequest(f).body, nowMs);
    assert o.status == 200 && o.body.JObj? && o.body.fields.Keys == UserController.LoginKeys;
    assert "name" !in o.body.fields;
    var reply := ReplyOf(o, env);
    assert reply == Answered(200, Parsed(o.body));
    assert Login.Failure(reply).None?;
    assert Field(o.body, "name").None?;
  }

  /** With the corrected handler, a successful login stores the account's
      own username and id. */
  lemma CorrectedLoginStoresIdentity(c: Crypto.Primitives, env: Env, users: map<UserModel.Id, UserModel.User>,
                                     f: Login.LoginForm, store: Store, nowMs: nat)
    requires Crypto.Sound(c) && UserModel.Consistent(users) && !f.isRegister
    requires UserController.LoginUser(c, env, users, Login.CorrectedRequest(f).body, nowMs).Sent?
    ensures var body := Login.CorrectedRequest(f).body;
      var u := UserModel.FindByEmail(users, body["email"]).value;
      var shown := Login.SubmitCorrected(f, store, ReplyOf(UserController.LoginUser(c, env, users, body, nowMs), env));
      && shown.loggedIn
      && shown.store["username"] == u.username
      && shown.store["userId"] == u.id
  {
    var body := Login.CorrectedRequest(f).body;
    var o := UserController.LoginUser(c, env, users, body, nowMs);
    var u := UserModel.FindByEmail(users, body["email"]).value;
    assert o.status == 200 && o.body.JObj?;
    assert o.body.fields["username"] == JStr(u.username) && o.body.fields["_id"] == JStr(u.id);
    var reply := ReplyOf(o, env);
    assert reply == Answered(200, Parsed(o.body));
    assert Login.Failure(reply).None?;
  }

  /** As written, no login writes a `userId` entry, so on a fresh store the
      post page never marks a post as liked or disliked by its viewer. */
  lemma LikeFlagsNeverSet(f: Login.LoginForm, store: Store, reply: Reply, post: Reply)
    requires "userId" !in store
    ensures var s := Login.Submit(f, store, reply).store;
      && "userId" !in s
      && !PostDetail.Loaded(PostDetail.Initial, s, post).isLiked
      && !PostDetail.Loaded(PostDetail.Initial, s, post).isDisliked
  {
    var s := Login.Submit(f, store, reply).store;
    PostDetail.NoUserIdNoFlags(s, post);
  }

  /** With the corrected login, a post whose `likedBy` holds the signed-in
      account's id is shown as liked. */
  lemma CorrectedLikeFlagShown(f: Login.LoginForm, store: Store, reply: Reply, data: Object, id: string)
    requires Login.SubmitCorrected(f, store, reply).loggedIn
    requires ToJsString(Field(reply.payload.v, "_id")) == id && id != ""
    requires "likedBy" in data && data["likedBy"] == JArr([JStr(id)]) && "dislikedBy" !in data
    ensures var s := Login.SubmitCorrected(f, store, reply).store;
      PostDetail.Loaded(PostDetail.Initial, s, Answered(200, Parsed(JObj(data)))).isLiked
  {
  }

  /** The post form keeps its offline posts under a key the post list
      never reads: saving offline leaves `buzznetPosts` as it was. */
  lemma OfflinePostsNotListed(f: PostForm.Form, store: Store, c: Codec, online: bool, reply: Reply, now: int)
    ensures var s := PostForm.Submit(f, store, c, online, reply, now).store;
      ("buzznetPosts" in s <==> "buzznetPosts" in store)
      && ("buzznetPosts" in store ==> s["buzznetPosts"] == store["buzznetPosts"])
  {
  }
}

=== FILE: http.dfy ===
/** What a `fetch` call gives the frontend: a rejection (the browser's
    "Failed to fetch" and the like), or a status with a body that
    `response.json()` either parses or fails on. */
module Http {
  import opened Wrappers
  import opened Json

  datatype Payload = Parsed(v: JVal) | Unparsable(message: string)

  datatype Reply = Rejected(message: string) | Answered(status: int, payload: Payload)

  /** `response.ok`. */
  predicate Ok(status: int) {
    200 <= status <= 299
  }

  /** `v.key` on a parsed body other than `null`: `undefined` (`None`)
      unless `v` is an object holding `key`. */
  function Field(v: JVal, key: string): (r: Option<JVal>)
    ensures r.Some? <==> v.JObj? && key in v.fields
    ensures r.Some? ==> r.value == v.fields[key]
  {
    if v.JObj? then Lookup(v.fields, key) else None
  }

  /** `data.message`; reading it from `null` throws, which callers catch
      the same way as a missing message. */
  function MessageField(v: JVal): (r: Option<JVal>)
    ensures v.JObj? && "message" in v.fields <==> r.Some?
    ensures r.Some? ==> r.value == v.fields["message"]
  {
    Field(v, "message")
  }

  const NullReadPrefix := "Cannot read properties of null (reading '"

  /** The TypeError message for reading `key` from `null`. */
  function NullRead(key: string): string {
    NullReadPrefix + key + "')"
  }
}

=== FILE: json.dfy ===
/** JSON values as they cross the wire between the backend and the
    frontend, together with the two JavaScript coercions the code relies
    on: truthiness (`x || d`, `!x`) and `String(x)` (what `localStorage`
    and `new Error(x)` store). `None` stands for `undefined`. */
module Json {
  import opened Wrappers
  import Text

  datatype JVal =
    | JNull
    | JBool(b: bool)
    | JNum(n: int)
    | JStr(s: string)
    | JArr(items: seq<JVal>)
    | JObj(fields: map<string, JVal>)

  type Object = map<string, JVal>

  /** JavaScript truthiness. Integers stand for numbers, so NaN is left out. */
  predicate Truthy(v: Option<JVal>) {
    match v
    case None => false
    case Some(JNull) => false
    case Some(JBool(b)) => b
    case Some(JNum(n)) => n != 0
    case Some(JStr(s)) => s != ""
    case Some(_) => true
  }

  /** `v || d` */
  function OrElse(v: Option<JVal>, d: JVal): (r: JVal)
    ensures Truthy(v) ==> r == v.value
    ensures !Truthy(v) ==> r == d
  {
    if Truthy(v) then v.value else d
  }

  /** `String(v)`: arrays join their elements with commas, rendering null
      and undefined elements as empty, and objects render as
      "[object Object]". */
  function ToJsString(v: Option<JVal>): (r: string)
    ensures v.None? ==> r == "undefined"
    ensures v.Some? && v.value.JStr? ==> r == v.value.s
  {
    match v
    case None => "undefined"
    case Some(x) => ValueString(x)
  }

  function ValueString(x: JVal): string
    decreases x, 1
  {
    match x
    case JNull => "null"
    case JBool(b) => if b then "true" else "false"
    case JNum(n) => Text.IntToString(n)
    case JStr(s) => s
    case JArr(items) => JoinElements(x, items)
    case JObj(_) => "[object Object]"
  }

  function JoinElements(ghost parent: JVal, items: seq<JVal>): string
    requires forall i :: 0 <= i < |items| ==> items[i] < parent
    decreases parent, 0, |items|
  {
    if |items| == 0 then ""
    else
      var head := if items[0].JNull? then "" else ValueString(items[0]);
      if |items| == 1 then head else head + "," + JoinElements(parent, items[1..])
  }
}

=== FILE: listing.dfy ===
/** Listing a keyed collection newest first, as `find().sort({ createdAt: -1 })`
    does: every stored document once, in non-increasing key order. The
    order among equal keys is whatever the database returns and is left
    open. */
module Listing {

  ghost predicate Descending<T>(s: seq<T>, key: T -> int) {
    forall i, j :: 0 <= i < j < |s| ==> key(s[i]) >= key(s[j])
  }

  /** Putting an element no smaller than the head in front keeps a
      descending list descending. */
  lemma ConsDescending<T>(a: T, t: seq<T>, key: T -> int)
    requires Descending(t, key) && (|t| == 0 || key(t[0]) <= key(a))
    ensures Descending([a] + t, key)
  {
    var r := [a] + t;
    forall i, j | 0 <= i < j < |r| ensures key(r[i]) >= key(r[j]) {
      if i > 0 {
        assert r[i] == t[i - 1] && r[j] == t[j - 1];
      } else {
        assert r[j] == t[j - 1];
      }
    }
  }

  /** Inserts `x` before the first element whose key is not above its own. */
  function Insert<T(==)>(x: T, s: seq<T>, key: T -> int): (r: seq<T>)
    requires Descending(s, key)
    ensures Descending(r, key)
    ensures multiset(r) == multiset(s) + multiset{x}
    ensures |r| == |s| + 1 && (r[0] == x || (|s| > 0 && r[0] == s[0]))
  {
    if |s| == 0 then [x]
    else if key(x) >= key(s[0]) then
      ConsDescending(x, s, key);
      [x] + s
    else
      var tail := Insert(x, s[1..], key);
      assert Descending([s[0]] + tail, key) by {
        ConsDescending(s[0], tail, key);
      }
      assert multiset([s[0]] + tail) == multiset(s) + multiset{x} by {
        assert s == [s[0]] + s[1..];
      }
      [s[0]] + tail
  }

  /** A sequence that is `s` plus `x` as a multiset is one longer than `s`
      and holds exactly the elements of `s` and `x`. */
  lemma InsertedMembers<T>(x: T, s: seq<T>, r: seq<T>)
    requires multiset(r) == multiset(s) + multiset{x}
    ensures |r| == |s| + 1
    ensures forall i :: 0 <= i < |r| ==> r[i] in s || r[i] == x
    ensures forall j :: 0 <= j < |s| ==> s[j] in r
    ensures x in r
  {
    assert |multiset(r)| == |multiset(s)| + 1;
    forall i | 0 <= i < |r| ensures r[i] in s || r[i] == x {
      assert r[i] in multiset(r);
    }
    forall j | 0 <= j < |s| ensures s[j] in r {
      assert s[j] in multiset(s);
      assert s[j] in multiset(r);
    }
    assert x in multiset(r);
  }

  /** Every document of `m`, each under its own key `idOf`, listed once in
      descending `key` order. */
  method NewestFirst<K, T(==)>(m: map<K, T>, key: T -> int, idOf: T -> K) returns (list: seq<T>)
    requires forall k :: k in m ==> idOf(m[k]) == k
    ensures Descending(list, key)
    ensures |list| == |m|
    ensures forall i :: 0 <= i < |list| ==> idOf(list[i]) in m && m[idOf(list[i])] == list[i]
    ensures forall k :: k in m ==> m[k] in list
  {
    list := [];
    var rest := m.Keys;
    while rest != {}
      invariant rest <= m.Keys
      invariant Descending(list, key)
      invariant |list| + |rest| == |m|
      invariant forall i :: 0 <= i < |list| ==>
        idOf(list[i]) in m && m[idOf(list[i])] == list[i] && idOf(list[i]) !in rest
      invariant forall k :: k in m && k !in rest ==> m[k] in list
      decreases |rest|
    {
      var k :| k in rest;
      var before := list;
      list := Insert(m[k], list, key);
      InsertedMembers(m[k], before, list);
      rest := rest - {k};
    }
  }
}

=== FILE: login.dfy ===
/** frontend/src/components/Login.jsx: the combined login/register form's
    `handleSubmit`. The request it builds is returned; the reply is an
    input. */
module Login {
  import opened Wrappers
  import opened Json
  import opened Http
  import opened Storage

  datatype LoginForm = LoginForm(isRegister: bool, username: string, password: string, error: string, loading: bool)

  /** The request `fetch` sends: endpoint path and JSON body. */
  datatype Request = Request(endpoint: string, body: map<string, string>)

  datatype Attempt = Attempt(form: LoginForm, store: Store, request: Request, loggedIn: bool)

  const RegisterPath := "/api/users/register"
  const LoginPath := "/api/users/login"
  const EmailDomain := "@test.com"
  const OperationFailed := "Operation failed"

  /** The endpoint and body for the current mode. */
  function BuildRequest(f: LoginForm): (r: Request)
    ensures r.endpoint == if f.isRegister then RegisterPath else LoginPath
    ensures f.isRegister ==> r.body.Keys == {"name", "email", "password"} && r.body["name"] == f.username
    ensures !f.isRegister ==> r.body.Keys == {"email", "password"}
    ensures "email" in r.body && r.body["email"] == f.username + EmailDomain
    ensures "password" in r.body && r.body["password"] == f.password
  {
    if f.isRegister then
      Request(RegisterPath, map["name" := f.username, "email" := f.username + EmailDomain, "password" := f.password])
    else
      Request(LoginPath, map["email" := f.username + EmailDomain, "password" := f.password])
  }

  /** The message of the error `handleSubmit` catches for `reply`, or
      `None` when it succeeds. */
  function Failure(reply: Reply): (r: Option<string>)
    ensures r.None? <==> reply.Answered? && Ok(reply.status) && reply.payload.Parsed? && !reply.payload.v.JNull?
    ensures reply.Answered? && !Ok(reply.status) && reply.payload.Parsed? && !reply.payload.v.JNull? ==>
      r == Some(if Truthy(MessageField(reply.payload.v)) then ToJsString(MessageField(reply.payload.v)) else OperationFailed)
  {
    match reply
    case Rejected(m) => Some(m)
    case Answered(status, payload) =>
      match payload
      case Unparsable(m) => Some(m)
      case Parsed(data) =>
        if data.JNull? then Some(NullRead(if Ok(status) then "token" else "message"))
        else if !Ok(status) then Some(ToJsString(Some(OrElse(MessageField(data), JStr(OperationFailed)))))
        else None
  }

  /** `handleSubmit`. On success the token and `data.name`, each coerced
      to a string, are stored and `onLogin` runs; on failure nothing is
      stored. `loading` is false afterwards either way. */
  function Submit(f: LoginForm, store: Store, reply: Reply): (r: Attempt)
    ensures r.request == BuildRequest(f)
    ensures !r.form.loading
    ensures r.form.isRegister == f.isRegister && r.form.username == f.username && r.form.password == f.password
    ensures r.loggedIn <==> Failure(reply).None?
    ensures !r.loggedIn ==> r.store == store && r.form.error == Failure(reply).value
    ensures r.loggedIn ==>
      && r.form.error == ""
      && r.store == store["token" := ToJsString(Field(reply.payload.v, "token"))]["username" := ToJsString(Field(reply.payload.v, "name"))]
  {
    var request := BuildRequest(f);
    var sending := f.(error := "", loading := true);
    match Failure(reply)
    case Some(m) => Attempt(sending.(error := m, loading := false), store, request, false)
    case None =>
      var data := reply.payload.v;
      var saved := store["token" := ToJsString(Field(data, "token"))]["username" := ToJsString(Field(data, "name"))];
      Attempt(sending.(loading := false), saved, request, true)
  }

  /** A failed attempt leaves storage alone, so a session stored before it
      survives. */
  lemma FailureKeepsSession(f: LoginForm, store: Store, reply: Reply)
    requires Failure(reply).Some? && Has(store, "token")
    ensures Has(Submit(f, store, reply).store, "token")
    ensures Submit(f, store, reply).store["token"] == store["token"]
  {
  }

  /** The request with the register body keyed `username`, the field
      `registerUser` reads. */
  function CorrectedRequest(f: LoginForm): (r: Request)
    ensures r.endpoint == BuildRequest(f).endpoint
    ensures f.isRegister ==> r.body.Keys == {"username", "email", "password"} && r.body["username"] == f.username
    ensures !f.isRegister ==> r == BuildRequest(f)
    ensures "email" in r.body && r.body["email"] == f.username + EmailDomain
    ensures "password" in r.body && r.body["password"] == f.password
  {
    if f.isRegister then
      Request(RegisterPath, map["username" := f.username, "email" := f.username + EmailDomain, "password" := f.password])
    else BuildRequest(f)
  }

  /** `handleSubmit` with the corrected request, storing the `username`
      and `_id` fields that the backend's responses carry (the latter is
      the `userId` entry the post page reads). */
  function SubmitCorrected(f: LoginForm, store: Store, reply: Reply): (r: Attempt)
    ensures r.request == CorrectedRequest(f)
    ensures !r.form.loading
    ensures r.loggedIn <==> Failure(reply).None?
    ensures !r.loggedIn ==> r.store == store && r.form.error == Failure(reply).value
    ensures r.loggedIn ==>
      var data := reply.payload.v;
      && "token" in r.store && r.store["token"] == ToJsString(Field(data, "token"))
      && "username" in r.store && r.store["username"] == ToJsString(Field(data, "username"))
      && "userId" in r.store && r.store["userId"] == ToJsString(Field(data, "_id"))
  {
    var asWritten := Submit(f, store, reply);
    if !asWritten.loggedIn then asWritten.(request := CorrectedRequest(f))
    else
      var data := reply.payload.v;
      asWritten.(
        request := CorrectedRequest(f),
        store := store["token" := ToJsString(Field(data, "token"))]
          ["username" := ToJsString(Field(data, "username"))]
          ["userId" := ToJsString(Field(data, "_id"))])
  }
}

=== FILE: post_controller.dfy ===
/** backend/controllers/postController.js: the six post handlers over the
    post collection. Only `GetPosts` and `CreatePost` are mounted by
    backend/routes/postRoutes.js (the latter behind `protect`); the others
    are modelled as written although no route reaches them. */
module PostController {
  import opened Wrappers
  import opened Text
  import opened Json
  import opened Server
  import opened PostModel
  import Listing

  type Posts = map<Id, Post>

  const NotFound := "Post not found"
  const CreateFieldsMissing := "Please provide both title and content for the post."
  const NotAuthenticated := "User not authenticated or user ID not found."
  const Deleted := "Post deleted successfully"

  /** Each post is stored under its own `_id`. */
  ghost predicate Consistent(posts: Posts) {
    forall k :: k in posts ==> posts[k].id == k
  }

  /** Every stored post passes the schema's validators. */
  ghost predicate AllValid(posts: Posts) {
    forall k :: k in posts ==> Valid(posts[k])
  }
  /** Storing one post under a key keeps both collection invariants when
      the post is valid and carries that key as its `_id`. */
  lemma PutKeeps(posts: Posts, k: Id, p: Post)
    ensures Consistent(posts) && p.id == k ==> Consistent(posts[k := p])
    ensures AllValid(posts) && Valid(p) ==> AllValid(posts[k := p])
  {
  }


  datatype Step = Step(posts: Posts, outcome: Outcome)

  function CreatedAt(p: Post): int { p.createdAt }
  function IdOf(p: Post): Id { p.id }

  function PostsJson(list: seq<Post>): (r: seq<JVal>)
    ensures |r| == |list|
    ensures forall i :: 0 <= i < |list| ==> r[i] == ToJson(list[i])
  {
    seq(|list|, i requires 0 <= i < |list| => ToJson(list[i]))
  }

  /** `getPosts`: every stored post, newest first, with status 200. */
  method GetPosts(posts: Posts) returns (list: seq<Post>, o: Outcome)
    requires Consistent(posts)
    ensures Listing.Descending(list, CreatedAt)
    ensures |list| == |posts|
    ensures forall i :: 0 <= i < |list| ==> list[i].id in posts && posts[list[i].id] == list[i]
    ensures forall k :: k in posts ==> posts[k] in list
    ensures o == Sent(200, JArr(PostsJson(list)))
  {
    list := Listing.NewestFirst(posts, CreatedAt, IdOf);
    o := Sent(200, JArr(PostsJson(list)));
  }

  /** `getPost` for `req.params.id == id`. */
  function GetPost(posts: Posts, id: Id): (r: Outcome)
    ensures id !in posts <==> r == Raised(404, PlainError(NotFound))
    ensures id in posts ==> r == Sent(200, ToJson(posts[id]))
  {
    if id in posts then Sent(200, ToJson(posts[id])) else Raised(404, PlainError(NotFound))
  }

  /** `createPost` for `req.body == body` with `req.user._id == actor`
      (`None` when no user is attached); `newId` is the `_id` MongoDB
      assigns. The author always comes from `actor`, never from the body. */
  function CreatePost(posts: Posts, body: Body, actor: Option<Id>, newId: Id, now: int): (r: Step)
    ensures Consistent(posts) ==> Consistent(r.posts)
    ensures AllValid(posts) ==> AllValid(r.posts)
    ensures !(Present(body, "title") && Present(body, "content")) ==>
      r == Step(posts, Raised(400, PlainError(CreateFieldsMissing)))
    ensures Present(body, "title") && Present(body, "content") && (actor.None? || actor == Some("")) ==>
      r == Step(posts, Raised(401, PlainError(NotAuthenticated)))
    ensures r.outcome.Raised? ==> r.posts == posts
    ensures r.outcome.Sent? ==>
      && newId !in posts
      && newId in r.posts && r.posts == posts[newId := r.posts[newId]]
      && var p := r.posts[newId];
      && p.author == actor && actor.Some? && actor.value != ""
      && p.title == Trim(body["title"]) && p.content == body["content"]
      && p.likes == 0 && p.likedBy == [] && p.comments == []
      && r.outcome == Sent(201, ToJson(p))
  {
    if !(Present(body, "title") && Present(body, "content")) then
      Step(posts, Raised(400, PlainError(CreateFieldsMissing)))
    else if actor.None? || actor.value == "" then
      Step(posts, Raised(401, PlainError(NotAuthenticated)))
    else Insert(posts, newId, body["title"], body["content"], actor.value, now)
  }

  /** `Post.create` for an authenticated author. Mongoose's `save` runs the
      schema validators first and only then `insertOne`, where the unique
      `_id` index can refuse the document. */
  function Insert(posts: Posts, newId: Id, title: string, content: string, author: Id, now: int): (r: Step)
    ensures Consistent(posts) ==> Consistent(r.posts)
    ensures AllValid(posts) ==> AllValid(r.posts)
    ensures AllWhitespace(title) || content == "" ==>
      r == Step(posts, Raised(200, ValidationError("Post", PostModel.Create(newId, title, content, Some(author), now).error)))
    ensures newId in posts && !AllWhitespace(title) && content != "" ==>
      r == Step(posts, Raised(200, DuplicateKeyError("_id", newId)))
    ensures r.outcome.Raised? ==> r.posts == posts
    ensures r.outcome.Sent? <==> newId !in posts && !AllWhitespace(title) && content != ""
    ensures r.outcome.Sent? ==>
      && newId in r.posts && r.posts == posts[newId := r.posts[newId]]
      && var p := r.posts[newId];
      && p.author == Some(author) && p.title == Trim(title) && p.content == content
      && p.likes == 0 && p.likedBy == [] && p.comments == []
      && r.outcome == Sent(201, ToJson(p))
  {
    var made := PostModel.Create(newId, title, content, Some(author), now);
    if made.Failure? then Step(posts, Raised(200, ValidationError("Post", made.error)))
    else if newId in posts then Step(posts, Raised(200, DuplicateKeyError("_id", newId)))
    else
        var p := made.value;
        PutKeeps(posts, newId, p);
        Step(posts[newId := p], Sent(201, ToJson(p)))
  }

  /** The update validators (`runValidators: true`) on the paths the body
      sets, after the `trim` setter. */
  function UpdateErrors(body: Body): (errs: seq<string>)
    ensures errs == [] <==>
      !("title" in body && AllWhitespace(body["title"])) && !("content" in body && body["content"] == "")
  {
    (if "title" in body && Trim(body["title"]) == "" then [TitleRequired] else [])
    + (if "content" in body && body["content"] == "" then [ContentRequired] else [])
  }

  /** A stored post with the update body applied, setters included: only
      the title (trimmed), the content and the timestamp can change, and
      a body that passes the update validators keeps the post valid. */
  function Revise(p: Post, body: Body, now: int): (q: Post)
    ensures q == p.(title := q.title, content := q.content, updatedAt := now)
    ensures q.title == (if "title" in body then Trim(body["title"]) else p.title)
    ensures q.content == (if "content" in body then body["content"] else p.content)
    ensures Valid(p) && UpdateErrors(body) == [] ==> Valid(q)
  {
    p.(title := if "title" in body then Trim(body["title"]) else p.title,
       content := if "content" in body then body["content"] else p.content,
       updatedAt := now)
  }

  /** `updatePost` for `req.params.id == id` and `req.body == body`, of
      which the `title` and `content` paths are modelled. Validation comes
      before the lookup, and no ownership is checked. */
  function UpdatePost(posts: Posts, id: Id, body: Body, now: int): (r: Step)
    ensures Consistent(posts) ==> Consistent(r.posts)
    ensures AllValid(posts) ==> AllValid(r.posts)
    ensures r.outcome.Raised? ==> r.posts == posts
    ensures UpdateErrors(body) != [] ==>
      r.posts == posts && r.outcome.Raised? && r.outcome.err.name == ValidationName
      && r.outcome.err.fieldMessages == UpdateErrors(body)
    ensures UpdateErrors(body) == [] && id !in posts ==> r == Step(posts, Raised(404, PlainError(NotFound)))
    ensures r.outcome.Sent? ==>
      && id in posts && id in r.posts && r.posts == posts[id := r.posts[id]]
      && var p := r.posts[id];
      && p == posts[id].(title := p.title, content := p.content, updatedAt := now)
      && p.title == (if "title" in body then Trim(body["title"]) else posts[id].title)
      && p.content == (if "content" in body then body["content"] else posts[id].content)
      && r.outcome == Sent(200, ToJson(p))
  {
    var errs := UpdateErrors(body);
    if errs != [] then Step(posts, Raised(200, ValidationError("Post", errs)))
    else if id !in posts then Step(posts, Raised(404, PlainError(NotFound)))
    else
      var p := Revise(posts[id], body, now);
      PutKeeps(posts, id, p);
      Step(posts[id := p], Sent(200, ToJson(p)))
  }

  /** `deletePost` for `req.params.id == id`. There is no actor parameter
      because the handler consults none: any caller deletes any post. */
  function DeletePost(posts: Posts, id: Id): (r: Step)
    ensures Consistent(posts) ==> Consistent(r.posts)
    ensures AllValid(posts) ==> AllValid(r.posts)
    ensures id !in posts <==> r == Step(posts, Raised(404, PlainError(NotFound)))
    ensures id in posts ==>
      && r.posts == posts - {id} && id !in r.posts
      && r.outcome == Sent(200, JObj(map["id" := JStr(id), "message" := JStr(Deleted)]))
  {
    if id !in posts then Step(posts, Raised(404, PlainError(NotFound)))
    else Step(posts - {id}, Sent(200, JObj(map["id" := JStr(id), "message" := JStr(Deleted)])))
  }

  /** The collection after `$inc: { likes: 1 }` on `id` (with the
      timestamp Mongoose adds to an update); unchanged when `id` is absent. */
  function Liked(posts: Posts, id: Id, now: int): (r: Posts)
    ensures r.Keys == posts.Keys
    ensures forall k :: k in posts && k != id ==> r[k] == posts[k]
    ensures id in posts ==>
      && r[id].likes == posts[id].likes + 1
      && r[id].likedBy == posts[id].likedBy
      && r[id] == posts[id].(likes := posts[id].likes + 1, updatedAt := now)
  {
    if id in posts then posts[id := posts[id].(likes := posts[id].likes + 1, updatedAt := now)]
    else posts
  }

  /** `likePost` for `req.params.id == id`: `$inc: { likes: 1 }` with no
      record of who liked, so `likedBy` is untouched. */
  function LikePost(posts: Posts, id: Id, now: int): (r: Step)
    ensures Consistent(posts) ==> Consistent(r.posts)
    ensures AllValid(posts) ==> AllValid(r.posts)
    ensures id !in posts <==> r == Step(posts, Raised(404, PlainError(NotFound)))
    ensures r.posts == Liked(posts, id, now)
    ensures id in posts ==> id in r.posts && r.outcome == Sent(200, ToJson(r.posts[id]))
  {
    if id !in posts then Step(posts, Raised(404, PlainError(NotFound)))
    else
      var p := posts[id].(likes := posts[id].likes + 1, updatedAt := now);
      PutKeeps(posts, id, p);
      Step(posts[id := p], Sent(200, ToJson(p)))
  }

  /** The collection after `n` like requests in a row for `id`, from
      whoever sends them: `LikePost` changes the collection by `Liked`. */
  function LikeTimes(posts: Posts, id: Id, n: nat, now: int): Posts
    decreases n
  {
    if n == 0 then posts else LikeTimes(Liked(posts, id, now), id, n - 1, now)
  }

  /** Likes are counted, not deduplicated: `n` requests raise the count by
      exactly `n` and never touch `likedBy`. */
  lemma {:induction false} LikesAccumulate(posts: Posts, id: Id, n: nat, now: int)
    requires id in posts
    ensures id in LikeTimes(posts, id, n, now)
    ensures LikeTimes(posts, id, n, now)[id].likes == posts[id].likes + n
    ensures LikeTimes(posts, id, n, now)[id].likedBy == posts[id].likedBy
    decreases n
  {
    if n > 0 {
      LikesAccumulate(Liked(posts, id, now), id, n - 1, now);
    }
  }

  /** Every handler that takes an id answers 404 "Post not found" for an
      absent one and leaves the collection as it was. */
  lemma MissingPostNotFound(posts: Posts, id: Id, body: Body, now: int, env: Env)
    requires id !in posts && UpdateErrors(body) == []
    ensures GetPost(posts, id) == Raised(404, PlainError(NotFound))
    ensures UpdatePost(posts, id, body, now) == Step(posts, Raised(404, PlainError(NotFound)))
    ensures DeletePost(posts, id) == Step(posts, Raised(404, PlainError(NotFound)))
    ensures LikePost(posts, id, now) == Step(posts, Raised(404, PlainError(NotFound)))
    ensures MessageOf(Finish(GetPost(posts, id), env)) == NotFound
  {
    RaisedStatusKept(NotFound, 404, env);
  }
}

=== FILE: post_detail.dfy ===
/** frontend/src/pages/PostDetail.jsx: the single-post page. The load, and
    each like or dislike, is split at its `await`: a synchronous start that
    decides whether a request goes out, and a completion that applies the
    reply. Storage and replies are inputs. */
module PostDetail {
  import opened Wrappers
  import opened Text
  import opened Json
  import opened Http
  import opened Storage

  /** The page state; counts are whatever the server sent (`None` is
      `undefined`). */
  datatype Page = Page(
    post: Option<JVal>, isLoading: bool, error: Option<string>,
    likes: Option<JVal>, dislikes: Option<JVal>,
    isLiked: bool, isDisliked: bool, isLoadingAction: bool)

  const Initial := Page(None, true, None, Some(JNum(0)), Some(JNum(0)), false, false, false)

  const FetchFailed := "Failed to fetch post"
  const LoginFirst := "Please login first"
  const NotFound := "Post not found"
  /** The TypeError V8 raises for `data.<field>?.includes(...)` when the
      field holds a value without an `includes` method; the message names
      the callee as written. */
  function NotAFunction(field: string): string {
    "data." + field + "?.includes is not a function"
  }

  datatype Action = Like | Dislike

  const LikeFailed := "Failed to like post. Please try again."
  const DislikeFailed := "Failed to dislike post. Please try again."

  function ActionFailed(a: Action): string {
    match a
    case Like => LikeFailed
    case Dislike => DislikeFailed
  }

  /** `localStorage.getItem('userId')`: never written by any part of the
      frontend, so a fresh store has none. */
  function UserId(store: Store): Option<string> {
    Lookup(store, "userId")
  }

  /** `list.includes(x)` for `x` the stored user id (`null` when absent):
      `None` when it throws. A string `list` searches for the text. */
  function Includes(list: JVal, x: Option<string>): (r: Option<bool>)
    ensures list.JArr? ==> r == Some(if x.Some? then JStr(x.value) in list.items else JNull in list.items)
    ensures list.JStr? ==> r == Some(Contains(list.s, if x.Some? then x.value else "null"))
    ensures !list.JArr? && !list.JStr? <==> r.None?
  {
    match list
    case JArr(items) => Some(if x.Some? then JStr(x.value) in items else JNull in items)
    case JStr(s) => Some(Contains(s, if x.Some? then x.value else "null"))
    case _ => None
  }

  /** `data.likedBy?.includes(currentUserId) || false`: optional chaining
      turns a missing or null list into `false`. */
  function Flag(list: Option<JVal>, uid: string): (r: Option<bool>)
    ensures list.None? || list == Some(JNull) ==> r == Some(false)
    ensures list.Some? && list.value.JArr? ==> r == Some(JStr(uid) in list.value.items)
  {
    if list.None? || list == Some(JNull) then Some(false) else Includes(list.value, Some(uid))
  }

  /** The completion of `fetchPost`. */
  function Loaded(p: Page, store: Store, reply: Reply): (r: Page)
    ensures !r.isLoading && r.isLoadingAction == p.isLoadingAction
    ensures reply.Rejected? ==> r == p.(isLoading := false, error := Some(reply.message))
    ensures reply.Answered? && !Ok(reply.status) ==> r == p.(isLoading := false, error := Some(FetchFailed))
    ensures reply.Answered? && Ok(reply.status) && reply.payload.Unparsable? ==>
      r == p.(isLoading := false, error := Some(reply.payload.message))
    ensures reply.Answered? && Ok(reply.status) && reply.payload.Parsed? && reply.payload.v.JNull? ==>
      r == p.(post := Some(JNull), isLoading := false, error := Some(NullRead("likes")))
    ensures reply.Answered? && Ok(reply.status) && reply.payload.Parsed? && !reply.payload.v.JNull? ==>
      var data := reply.payload.v;
      && r.post == Some(data)
      && r.likes == Some(OrElse(Field(data, "likes"), JNum(0)))
      && r.dislikes == Some(OrElse(Field(data, "dislikes"), JNum(0)))
      && (!Has(store, "userId") ==> r.isLiked == p.isLiked && r.isDisliked == p.isDisliked && r.error == p.error)
      && (Has(store, "userId") ==>
        var liked, disliked := Flag(Field(data, "likedBy"), store["userId"]), Flag(Field(data, "dislikedBy"), store["userId"]);
        && (liked.Some? && disliked.Some? ==>
          r.isLiked == liked.value && r.isDisliked == disliked.value && r.error == p.error)
        && (liked.None? ==> r.error == Some(NotAFunction("likedBy")))
        && (liked.Some? && disliked.None? ==> r.isLiked == liked.value && r.error == Some(NotAFunction("dislikedBy"))))
  {
    match reply
    case Rejected(m) => p.(isLoading := false, error := Some(m))
    case Answered(status, payload) =>
      if !Ok(status) then p.(isLoading := false, error := Some(FetchFailed))
      else match payload
      case Unparsable(m) => p.(isLoading := false, error := Some(m))
      case Parsed(data) =>
        if data.JNull? then p.(post := Some(JNull), isLoading := false, error := Some(NullRead("likes")))
        else
          var shown := p.(post := Some(data),
            likes := Some(OrElse(Field(data, "likes"), JNum(0))),
            dislikes := Some(OrElse(Field(data, "dislikes"), JNum(0))));
          if !Has(store, "userId") then shown.(isLoading := false)
          else
            var uid := store["userId"];
            match Flag(Field(data, "likedBy"), uid)
            case None => shown.(isLoading := false, error := Some(NotAFunction("likedBy")))
            case Some(liked) =>
              match Flag(Field(data, "dislikedBy"), uid)
              case None => shown.(isLiked := liked, isLoading := false, error := Some(NotAFunction("dislikedBy")))
              case Some(disliked) => shown.(isLiked := liked, isDisliked := disliked, isLoading := false)
  }

  /** With no stored user id, which nothing in the frontend writes, the page
      never shows a post as liked or disliked by its viewer. */
  lemma NoUserIdNoFlags(store: Store, reply: Reply)
    requires !Has(store, "userId")
    ensures !Loaded(Initial, store, reply).isLiked && !Loaded(Initial, store, reply).isDisliked
  {
  }

  /** The synchronous start of `handleLike`/`handleDislike`: whether a
      request is sent, and any alert. */
  datatype Start = Start(page: Page, sent: bool, alert: Option<string>)

  function Begin(p: Page, store: Store): (r: Start)
    ensures p.isLoadingAction ==> r == Start(p, false, None)
    ensures !p.isLoadingAction && !Has(store, "token") ==> r == Start(p, false, Some(LoginFirst))
    ensures r.sent <==> !p.isLoadingAction && Has(store, "token")
    ensures r.sent ==> r.page == p.(isLoadingAction := true) && r.alert.None?
  {
    if p.isLoadingAction then Start(p, false, None)
    else if !Has(store, "token") then Start(p, false, Some(LoginFirst))
    else Start(p.(isLoadingAction := true), true, None)
  }

  /** The completion of an action that was sent, with its alert on
      failure. On success the counts and flags all come from the reply. */
  function Complete(p: Page, store: Store, a: Action, reply: Reply): (r: Start)
    ensures !r.page.isLoadingAction && !r.sent
    ensures r.page.post == p.post && r.page.isLoading == p.isLoading && r.page.error == p.error
    ensures r.alert.None? ==>
      && reply.Answered? && Ok(reply.status) && reply.payload.Parsed?
      && var u := reply.payload.v;
      && !u.JNull?
      && r.page.likes == Field(u, "likes") && r.page.dislikes == Field(u, "dislikes")
      && Field(u, "likedBy").Some? && Includes(Field(u, "likedBy").value, UserId(store)) == Some(r.page.isLiked)
      && Field(u, "dislikedBy").Some? && Includes(Field(u, "dislikedBy").value, UserId(store)) == Some(r.page.isDisliked)
    ensures r.alert.Some? ==> r.alert.value == ActionFailed(a)
    ensures reply.Rejected? || (reply.Answered? && !Ok(reply.status)) ==> r == Start(p.(isLoadingAction := false), false, Some(ActionFailed(a)))
  {
    var failed := Start(p.(isLoadingAction := false), false, Some(ActionFailed(a)));
    match reply
    case Rejected(_) => failed
    case Answered(status, payload) =>
      if !Ok(status) || payload.Unparsable? || payload.v.JNull? then failed
      else
        var u := payload.v;
        var counted := p.(likes := Field(u, "likes"), dislikes := Field(u, "dislikes"), isLoadingAction := false);
        var uid := UserId(store);
        var liked := if Field(u, "likedBy").Some? then Includes(Field(u, "likedBy").value, uid) else None;
        if liked.None? then Start(counted, false, Some(ActionFailed(a)))
        else
          var disliked := if Field(u, "dislikedBy").Some? then Includes(Field(u, "dislikedBy").value, uid) else None;
          if disliked.None? then Start(counted.(isLiked := liked.value), false, Some(ActionFailed(a)))
          else Start(counted.(isLiked := liked.value, isDisliked := disliked.value), false, None)
  }

  /** The in-flight guard: once an action is sent, a second click sends
      nothing until the first completes, and after any completion a new
      action can be sent again. */
  lemma InFlightGuard(p: Page, store: Store, a: Action, reply: Reply)
    requires Begin(p, store).sent
    ensures var busy := Begin(p, store).page;
      && !Begin(busy, store).sent && Begin(busy, store).page == busy
      && Begin(Complete(busy, store, a, reply).page, store).sent
  {
  }

  datatype Screen = LoadingScreen | ErrorScreen(message: string) | MissingScreen(message: string) | PostScreen(post: JVal)

  function Render(p: Page): (r: Screen)
    ensures p.isLoading <==> r == LoadingScreen
    ensures !p.isLoading && p.error.Some? && p.error.value != "" ==> r == ErrorScreen(p.error.value)
    ensures r.MissingScreen? <==>
      !p.isLoading && !(p.error.Some? && p.error.value != "") && !Truthy(p.post)
    ensures r.MissingScreen? ==> r.message == NotFound
  {
    if p.isLoading then LoadingScreen
    else if p.error.Some? && p.error.value != "" then ErrorScreen(p.error.value)
    else if !Truthy(p.post) then MissingScreen(NotFound)
    else PostScreen(p.post.value)
  }

  /** A load that fails at the network shows its error, never the
      not-found text, and never the spinner. */
  lemma FailedLoadShowsError(store: Store, reply: Reply)
    requires reply.Rejected? ==> reply.message != ""
    requires reply.Rejected? || (reply.Answered? && !Ok(reply.status))
    ensures Render(Loaded(Initial, store, reply)).ErrorScreen?
  {
  }
}

=== FILE: post_form.dfy ===
/** frontend/src/components/PostForm.jsx: `handleSubmit` of the new-post
    form, including the rule that saves a post locally when the backend is
    unreachable. The reply, `navigator.onLine` and the clock are inputs. */
module PostForm {
  import opened Wrappers
  import opened Text
  import opened Json
  import opened Http
  import opened Storage

  datatype Form = Form(
    title: string, content: string, authorName: string,
    isSubmitting: bool, error: Option<string>, offlineMode: bool)

  /** The `POST /api/posts` request: bearer token and JSON payload. */
  datatype Request = Request(token: string, payload: map<string, string>)

  /** What `onPostCreated` receives. */
  datatype Created = ServerPost(v: JVal) | LocalPost(p: OfflinePost)

  /** The state after a submit. `threw` marks the one path where the
      handler itself throws: an unreadable offline list. */
  datatype Submission = Submission(form: Form, store: Store, request: Option<Request>, created: Option<Created>, threw: bool)

  const FieldsRequired := "Title and content are required."
  const LoginRequired := "You must be logged in to create a post. Please log in and try again."
  const SessionExpired := "Unauthorized" + ". Your session may have expired. Please log in again."
  const SavedLocally := "Connection unavailable. Post saved locally and will sync when back online."
  const CreateFailed := "Failed to create post. Please try again."
  const OfflineKey := "buzznetOfflinePosts"
  const UnknownAuthor := "Unknown User (Offline)"
  const ServerErrorPrefix := "Server error: "
  const ErrorPrefix := "Error: "

  /** The message of the error thrown for a non-OK reply. */
  function StatusMessage(status: int, payload: Payload): (r: string)
    ensures status == 401 ==> r == (if payload.Parsed? && Truthy(MessageField(payload.v))
      then ToJsString(MessageField(payload.v)) else SessionExpired)
    ensures status != 401 && payload.Parsed? && Truthy(MessageField(payload.v)) ==>
      r == ToJsString(MessageField(payload.v))
    ensures status != 401 && payload.Parsed? && !Truthy(MessageField(payload.v)) && !payload.v.JNull? ==>
      r == ServerErrorPrefix + IntToString(status)
    ensures status != 401 && (payload.Unparsable? || payload.v.JNull?) ==>
      r == ErrorPrefix + IntToString(status)
  {
    if status == 401 then
      if payload.Parsed? && Truthy(MessageField(payload.v)) then ToJsString(MessageField(payload.v))
      else SessionExpired
    else if payload.Unparsable? || payload.v.JNull? then ErrorPrefix + IntToString(status)
    else if Truthy(MessageField(payload.v)) then ToJsString(MessageField(payload.v))
    else ServerErrorPrefix + IntToString(status)
  }

  /** The message reaching `catch`, or `None` when the reply is a success
      with a parsed body. */
  function Failure(reply: Reply): (r: Option<string>)
    ensures r.None? <==> reply.Answered? && Ok(reply.status) && reply.payload.Parsed?
  {
    match reply
    case Rejected(m) => Some(m)
    case Answered(status, payload) =>
      if !Ok(status) then Some(StatusMessage(status, payload))
      else if payload.Unparsable? then Some(payload.message)
      else None
  }

  /** The offline-save rule of the `catch` block. */
  predicate SavesOffline(message: string, online: bool) {
    && !Contains(ToLower(message), "unauthorized")
    && (!online || (message != "" && Contains(ToLower(message), "failed to fetch")))
  }

  function TempPost(f: Form, now: int): (p: OfflinePost)
    ensures p.id == "temp_" + IntToString(now) && p.likes == 0 && p.isOffline
    ensures p.title == f.title && p.content == f.content
    ensures p.author == if f.authorName != "" then f.authorName else UnknownAuthor
  {
    OfflinePost(f.title, f.content, if f.authorName != "" then f.authorName else UnknownAuthor,
      "temp_" + IntToString(now), now, 0, true)
  }

  /** The `catch` block for an error with message `message`. */
  function Catch(f: Form, store: Store, c: Codec, online: bool, message: string, now: int): (r: Submission)
    requires f.isSubmitting && f.error.None?
    ensures r.request.None? && !r.form.isSubmitting
    ensures !SavesOffline(message, online) ==>
      && r.store == store && r.created.None? && !r.threw
      && r.form == f.(isSubmitting := false, error := Some(if message != "" then message else CreateFailed))
    ensures SavesOffline(message, online) ==>
      && r.form.offlineMode && r.form.error == Some(SavedLocally)
      && (Saved(c, store, OfflineKey).None? <==> r.threw)
      && (r.threw ==> r.store == store && r.created.None? && r.form.title == f.title && r.form.content == f.content)
      && (!r.threw ==>
        && r.form.title == "" && r.form.content == ""
        && r.created == Some(LocalPost(TempPost(f, now)))
        && r.store == store[OfflineKey := c.stringify(Saved(c, store, OfflineKey).value + [TempPost(f, now)])])
  {
    if Contains(ToLower(message), "unauthorized") then
      Submission(f.(isSubmitting := false, error := Some(message)), store, None, None, false)
    else if !online || (message != "" && Contains(ToLower(message), "failed to fetch")) then
      var noticed := f.(offlineMode := true, error := Some(SavedLocally));
      var temp := TempPost(f, now);
      match Saved(c, store, OfflineKey)
      case None => Submission(noticed.(isSubmitting := false), store, None, None, true)
      case Some(prev) =>
        Submission(noticed.(title := "", content := "", isSubmitting := false),
          store[OfflineKey := c.stringify(prev + [temp])], None, Some(LocalPost(temp)), false)
    else
      Submission(f.(isSubmitting := false, error := Some(if message != "" then message else CreateFailed)),
        store, None, None, false)
  }

  /** `handleSubmit` with the form state `f`, storage `store`, online flag
      `online` and, if a request is sent, its reply `reply`. */
  function Submit(f: Form, store: Store, c: Codec, online: bool, reply: Reply, now: int): (r: Submission)
    ensures f.title == "" || f.content == "" ==>
      r == Submission(f.(error := Some(FieldsRequired)), store, None, None, false)
    ensures f.title != "" && f.content != "" && !Has(store, "token") ==>
      r == Submission(f.(error := Some(LoginRequired), isSubmitting := false), store, None, None, false)
    ensures r.request.Some? <==> f.title != "" && f.content != "" && Has(store, "token")
    ensures r.request.Some? ==>
      && r.request.value.token == store["token"]
      && r.request.value.payload == map["title" := f.title, "content" := f.content]
      && !r.form.isSubmitting
    ensures r.request.Some? && Failure(reply).None? ==>
      && r.form == f.(title := "", content := "", isSubmitting := false, error := None, offlineMode := false)
      && r.store == store && r.created == Some(ServerPost(reply.payload.v))
    ensures r.store != store ==> r.request.Some? && Failure(reply).Some? && SavesOffline(Failure(reply).value, online)
  {
    if f.title == "" || f.content == "" then
      Submission(f.(error := Some(FieldsRequired)), store, None, None, false)
    else if !Has(store, "token") then
      Submission(f.(error := Some(LoginRequired), isSubmitting := false), store, None, None, false)
    else
      var request := Request(store["token"], map["title" := f.title, "content" := f.content]);
      var sending := f.(isSubmitting := true, error := None);
      match Failure(reply)
      case None =>
        Submission(sending.(title := "", content := "", isSubmitting := false, offlineMode := false),
          store, Some(request), Some(ServerPost(reply.payload.v)), false)
      case Some(message) =>
        Catch(sending, store, c, online, message, now).(request := Some(request))
  }

  /** An offline save appends the new post after everything already saved,
      read back through a sound codec. */
  lemma OfflineSaveAppends(f: Form, store: Store, c: Codec, message: string, online: bool, now: int)
    requires Sound(c) && f.title != "" && f.content != "" && Has(store, "token")
    requires SavesOffline(message, online) && Saved(c, store, OfflineKey).Some?
    requires c.stringify(Saved(c, store, OfflineKey).value + [TempPost(f, now)]) != ""
    ensures var r := Submit(f, store, c, online, Rejected(message), now);
      && !r.threw
      && Saved(c, r.store, OfflineKey) == Some(Saved(c, store, OfflineKey).value + [TempPost(f, now)])
      && r.created == Some(LocalPost(TempPost(f, now)))
  {
    var prev := Saved(c, store, OfflineKey).value;
    SavedRoundTrip(c, store, OfflineKey, prev + [TempPost(f, now)]);
  }

  /** A 401 whose body carries no message is never saved offline: the
      default text itself contains "unauthorized". */
  lemma SessionExpiryNotSavedOffline(online: bool)
    ensures !SavesOffline(SessionExpired, online)
  {
    var lowered := ToLower(SessionExpired);
    assert SessionExpired[..12] == "Unauthorized" by {
      assert |"Unauthorized"| == 12;
    }
    assert lowered[..12] == ToLower(SessionExpired[..12]);
    assert ToLower("Unauthorized") == "unauthorized";
    assert OccursAt(lowered, "unauthorized", 0);
    ContainsFromOccurrence(ToLower(SessionExpired), "unauthorized", 0);
  }
}

=== FILE: post_item.dfy ===
/** frontend/src/components/PostItem.jsx: the relative date shown for a
    post and the collapsed/expanded content view. Times are integer
    milliseconds since the epoch; the clock reading `now` is an input. */
module PostItem {
  import opened Wrappers
  import opened Text

  const MinuteMs := 1000 * 60
  const HourMs := 1000 * 60 * 60
  const DayMs := 1000 * 60 * 60 * 24
  /** Collapsed content keeps this many characters. */
  const PreviewLength := 150

  datatype Unit = Minute | Hour | Day

  /** The bucket `formatDate` picks; `Absolute` is the locale-formatted
      date used from seven days on. */
  datatype Age = Relative(count: nat, unit: Unit) | Absolute

  function Abs(x: int): nat { if x < 0 then -x else x }

  /** `formatDate(createdAt)` at clock reading `now`, before rendering. */
  function FormatDate(now: int, date: int): (r: Age)
    ensures var d := Abs(now - date);
      && (r == Relative(d / MinuteMs, Minute) <==> d < HourMs)
      && (r == Relative(d / HourMs, Hour) <==> HourMs <= d < DayMs)
      && (r == Relative(d / DayMs, Day) <==> DayMs <= d < 7 * DayMs)
      && (r == Absolute <==> 7 * DayMs <= d)
    ensures r.Relative? && r.unit == Minute ==> r.count < 60
    ensures r.Relative? && r.unit == Hour ==> 1 <= r.count < 24
    ensures r.Relative? && r.unit == Day ==> 1 <= r.count < 7
  {
    var diff := Abs(now - date);
    var minutes := diff / MinuteMs;
    var hours := diff / HourMs;
    var days := diff / DayMs;
    if minutes < 60 then Relative(minutes, Minute)
    else if hours < 24 then Relative(hours, Hour)
    else if days < 7 then Relative(days, Day)
    else Absolute
  }

  function UnitName(u: Unit, count: nat): (r: string)
    ensures u == Minute ==> r == if count == 1 then "minute" else "minutes"
    ensures u == Hour ==> r == if count == 1 then "hour" else "hours"
    ensures u == Day ==> r == if count == 1 then "day" else "days"
  {
    var base := match u case Minute => "minute" case Hour => "hour" case Day => "day";
    if count == 1 then base else base + "s"
  }

  /** The text of a relative age; `None` for the locale-formatted date,
      whose text is not modelled. */
  function Render(a: Age): (r: Option<string>)
    ensures r.None? <==> a.Absolute?
    ensures r.Some? ==>
      var digits := NatToString(a.count);
      && r.value == digits + " " + (UnitName(a.unit, a.count) + " ago")
      && r.value[|digits|] == ' '
  {
    match a
    case Absolute => None
    case Relative(n, u) => Some(NatToString(n) + " " + (UnitName(u, n) + " ago"))
  }

  /** A rendered age reads back: the leading digits spell the count, the
      unit is singular exactly for a count of one, and two distinct ages
      never render alike. */
  lemma RenderReadsBack(a: Age)
    requires a.Relative?
    ensures var text := Render(a).value; var k := |NatToString(a.count)|;
      && k < |text| && AllDigits(text[..k]) && DigitsValue(text[..k]) == a.count && text[k] == ' '
      && (text[k + 1..] == UnitName(a.unit, a.count) + " ago")
      && (UnitName(a.unit, a.count)[|UnitName(a.unit, a.count)| - 1] == 's' <==> a.count != 1)
  {
    var text := Render(a).value;
    var digits := NatToString(a.count);
    assert text[..|digits|] == digits;
    assert text[|digits| + 1..] == UnitName(a.unit, a.count) + " ago";
    NatToStringRoundTrip(a.count);
  }

  /** Two texts that both start with a space-free word and a space split
      the same way. */
  lemma {:induction false} SplitAtFirstSpace(u: string, x: string, v: string, y: string)
    requires ' ' !in u && ' ' !in v && u + " " + x == v + " " + y
    ensures u == v && x == y
  {
    var t := u + " " + x;
    assert t[..|u|] == u && t[|u|] == ' ';
    assert IndexOf(t, ' ') == Some(|u|);
    assert t[..|v|] == v && t[|v|] == ' ' by {
      assert t == v + " " + y;
    }
    assert IndexOf(t, ' ') == Some(|v|);
    assert x == t[|u| + 1..];
    assert y == (v + " " + y)[|v| + 1..];
  }

  lemma NoSpaceInDigits(n: nat)
    ensures ' ' !in NatToString(n)
  {
  }

  lemma UnitNameInjective(u: Unit, v: Unit, n: nat)
    requires UnitName(u, n) + " ago" == UnitName(v, n) + " ago"
    ensures u == v
  {
    assert (UnitName(u, n) + " ago")[0] == UnitName(u, n)[0];
    assert (UnitName(v, n) + " ago")[0] == UnitName(v, n)[0];
  }

  lemma {:induction false} RenderInjective(a: Age, b: Age)
    requires a.Relative? && b.Relative? && Render(a) == Render(b)
    ensures a == b
  {
    var da, db := NatToString(a.count), NatToString(b.count);
    NoSpaceInDigits(a.count);
    NoSpaceInDigits(b.count);
    var ra, rb := UnitName(a.unit, a.count) + " ago", UnitName(b.unit, b.count) + " ago";
    assert da + " " + ra == db + " " + rb;
    SplitAtFirstSpace(da, ra, db, rb);
    NatToStringInjective(a.count, b.count);
    UnitNameInjective(a.unit, b.unit, a.count);
  }

  /** `Math.abs` makes the label blind to direction: a date `k` ms in the
      future reads as one `k` ms in the past. */
  lemma PastAndFutureAlike(now: int, k: int)
    ensures FormatDate(now, now - k) == FormatDate(now, now + k)
  {
    assert Abs(now - (now - k)) == Abs(now - (now + k));
  }

  /** The content shown: the whole text when expanded or short, otherwise
      its first 150 characters and an ellipsis. */
  function Shown(content: string, expanded: bool): (r: string)
    ensures expanded || |content| <= PreviewLength ==> r == content
    ensures !expanded && |content| > PreviewLength ==>
      |r| == PreviewLength + 3 && r[..PreviewLength] == content[..PreviewLength] && r[PreviewLength..] == "..."
  {
    if expanded then content
    else if |content| > PreviewLength then content[..PreviewLength] + "..."
    else content
  }

  /** The read-more button is rendered for long content only. */
  predicate ShowsToggle(content: string) {
    |content| > PreviewLength
  }

  function Toggle(expanded: bool): (r: bool)
    ensures r != expanded
  {
    !expanded
  }

  /** Toggling twice restores the view. Without the toggle both views are
      the full text; with it they differ, except for a 153-character text
      that already ends in "..." at position 150. */
  lemma ToggleRoundTrip(content: string, expanded: bool)
    ensures Shown(content, Toggle(Toggle(expanded))) == Shown(content, expanded)
    ensures !ShowsToggle(content) ==> Shown(content, false) == Shown(content, true)
    ensures ShowsToggle(content) && |content| != PreviewLength + 3 ==> Shown(content, false) != Shown(content, true)
  {
  }
}

=== FILE: post_list.dfy ===
/** frontend/src/components/PostList.jsx: the home-page list, its fallback
    when the backend cannot be reached, and its like handler. The fetch
    results and the parsed `buzznetPosts` entry of local storage are
    inputs. */
module PostList {
  import opened Wrappers

  /** A post as the list holds it (the JSON the backend sends). */
  datatype Item = Item(id: string, title: string, content: string, author: string, likes: int, createdAt: int)

  datatype View = View(posts: seq<Item>, loading: bool, error: Option<string>, usedMock: bool)

  const Initial := View([], true, None, false)

  const LocalNotice := "Using locally saved posts - database connection issue"
  const SampleNotice := "Using sample posts - database connection issue"
  const NoPosts := "No posts found"
  const DayMs := 86400000

  const WelcomeText :=
    "This is a placeholder post while we connect to the database. The real posts will appear once the backend is properly deployed."
  const HowToText :=
    "Create an account, write posts, and interact with other users. This is a temporary post until the database connection is established."

  /** `MOCK_POSTS`, built when the module loads at clock reading `now`. */
  function MockPosts(now: int): (r: seq<Item>)
    ensures |r| == 2 && r[0].id == "1" && r[1].id == "2"
    ensures r[0].likes == 5 && r[1].likes == 3
    ensures r[1].createdAt == r[0].createdAt - DayMs
  {
    [ Item("1", "Welcome to BuzzNet", WelcomeText, "System", 5, now),
      Item("2", "How to use BuzzNet", HowToText, "Admin", 3, now - DayMs) ]
  }

  /** The outcome of `GET /api/posts`: the parsed body of an OK response, or
      a failure (a rejected fetch or a non-OK status both land in `catch`). */
  datatype Fetched = Loaded(data: seq<Item>) | FetchFailed

  /** The mount-time fetch. `stored` is `JSON.parse` of the
      `buzznetPosts` entry (`'[]'` when absent), or `None` when the entry is
      not valid JSON: `JSON.parse` then throws inside `catch`, so only the
      `finally` runs. */
  function Fetch(v: View, fetched: Fetched, stored: Option<seq<Item>>, mockTime: int): (r: View)
    ensures !r.loading
    ensures fetched.Loaded? ==> r == View(fetched.data, false, None, false)
    ensures fetched.FetchFailed? && stored.Some? && |stored.value| > 0 ==>
      r == View(stored.value, false, Some(LocalNotice), true)
    ensures fetched.FetchFailed? && stored.Some? && |stored.value| == 0 ==>
      r == View(MockPosts(mockTime), false, Some(SampleNotice), true)
    ensures fetched.FetchFailed? && stored.None? ==> r == v.(loading := false)
  {
    match fetched
    case Loaded(data) => View(data, false, None, false)
    case FetchFailed =>
      if stored.None? then v.(loading := false)
      else if |stored.value| > 0 then View(stored.value, false, Some(LocalNotice), true)
      else View(MockPosts(mockTime), false, Some(SampleNotice), true)
  }

  function Bump(posts: seq<Item>, id: string): (r: seq<Item>)
    ensures |r| == |posts|
    ensures forall i :: 0 <= i < |posts| ==>
      r[i] == if posts[i].id == id then posts[i].(likes := posts[i].likes + 1) else posts[i]
  {
    seq(|posts|, i requires 0 <= i < |posts| => if posts[i].id == id then posts[i].(likes := posts[i].likes + 1) else posts[i])
  }

  function Replace(posts: seq<Item>, id: string, updated: Item): (r: seq<Item>)
    ensures |r| == |posts|
    ensures forall i :: 0 <= i < |posts| ==> r[i] == if posts[i].id == id then updated else posts[i]
  {
    seq(|posts|, i requires 0 <= i < |posts| => if posts[i].id == id then updated else posts[i])
  }

  /** `handleLike(id)`. In mock mode no request is sent; otherwise
      `response` is the parsed body of an OK `PATCH` reply, or `None` when
      the request fails or is not OK. */
  function HandleLike(v: View, id: string, response: Option<Item>): (r: View)
    ensures r.loading == v.loading && r.error == v.error && r.usedMock == v.usedMock
    ensures |r.posts| == |v.posts|
    ensures forall i :: 0 <= i < |v.posts| && v.posts[i].id != id ==> r.posts[i] == v.posts[i]
    ensures v.usedMock ==> forall i :: 0 <= i < |v.posts| && v.posts[i].id == id ==>
      r.posts[i] == v.posts[i].(likes := v.posts[i].likes + 1)
    ensures !v.usedMock && response.None? ==> r == v
    ensures !v.usedMock && response.Some? ==> forall i :: 0 <= i < |v.posts| && v.posts[i].id == id ==>
      r.posts[i] == response.value
  {
    if v.usedMock then v.(posts := Bump(v.posts, id))
    else if response.None? then v
    else v.(posts := Replace(v.posts, id, response.value))
  }

  /** What the component renders. */
  datatype Screen =
    | LoadingScreen
    | ErrorScreen(message: string)
    | SampleScreen(notice: string, shown: seq<Item>)
    | EmptyScreen(message: string)
    | RecentScreen(shown: seq<Item>)

  predicate HasError(v: View) {
    v.error.Some? && v.error.value != ""
  }

  function Render(v: View): (r: Screen)
    ensures v.loading <==> r == LoadingScreen
    ensures !v.loading && HasError(v) ==>
      r == if v.usedMock then SampleScreen(v.error.value, v.posts) else ErrorScreen(v.error.value)
    ensures !v.loading && !HasError(v) ==>
      r == if |v.posts| == 0 then EmptyScreen(NoPosts) else RecentScreen(v.posts)
  {
    if v.loading then LoadingScreen
    else if HasError(v) && !v.usedMock then ErrorScreen(v.error.value)
    else if HasError(v) && v.usedMock then SampleScreen(v.error.value, v.posts)
    else if |v.posts| == 0 then EmptyScreen(NoPosts)
    else RecentScreen(v.posts)
  }

  /** From the initial state the fetch never leaves a bare error screen: a
      failure always falls back to stored or sample posts (or, with an
      unreadable store, to the empty list), and the sample fallback is
      never empty. */
  lemma FetchAlwaysShowsPosts(fetched: Fetched, stored: Option<seq<Item>>, mockTime: int)
    ensures var s := Render(Fetch(Initial, fetched, stored, mockTime));
      && !s.LoadingScreen? && !s.ErrorScreen?
      && (s.EmptyScreen? <==> (fetched.Loaded? && fetched.data == []) || (fetched.FetchFailed? && stored.None?))
      && (s.SampleScreen? <==> fetched.FetchFailed? && stored.Some?)
  {
  }

  /** In mock mode `n` likes of one post raise its count by `n`. */
  function LikeTimes(v: View, id: string, n: nat): View
    decreases n
  {
    if n == 0 then v else LikeTimes(HandleLike(v, id, None), id, n - 1)
  }

  lemma {:induction false} MockLikesAccumulate(v: View, id: string, n: nat, i: int)
    requires v.usedMock && 0 <= i < |v.posts| && v.posts[i].id == id
    ensures |LikeTimes(v, id, n).posts| == |v.posts|
    ensures LikeTimes(v, id, n).posts[i] == v.posts[i].(likes := v.posts[i].likes + n)
    decreases n
  {
    if n > 0 {
      var next := HandleLike(v, id, None);
      MockLikesAccumulate(next, id, n - 1, i);
    }
  }
}

=== FILE: post_model.dfy ===
/** The Mongoose `Post` schema of backend/models/Post.js with its embedded
    comment schema: field setters, defaults and validators. */
module PostModel {
  import opened Wrappers
  import opened Text
  import opened Json

  type Id = string

  datatype Comment = Comment(user: Option<Id>, text: string, createdAt: int, updatedAt: int)

  datatype Post = Post(
    id: Id,
    title: string,
    content: string,
    author: Option<Id>,
    likes: int,
    likedBy: seq<Id>,
    comments: seq<Comment>,
    commentCount: int,
    createdAt: int,
    updatedAt: int)

  const TitleRequired := "Please provide a post title"
  const ContentRequired := "Please provide post content"
  const AuthorRequired := "Post must have an author"
  const CommentUserRequired := "Path `user` is required."
  const CommentTextRequired := "Comment text cannot be empty"

  const BelowMinimumSuffix := ") is less than minimum allowed value (0)."

  /** Mongoose's message for a `min: 0` violation on `path`. */
  function BelowMinimum(path: string, value: int): string {
    "Path `" + path + "` (" + IntToString(value) + BelowMinimumSuffix
  }

  /** The comment validators, in schema order, for a comment whose text
      has already been through the `trim` setter. */
  function ValidateComment(c: Comment): (errs: seq<string>)
    ensures errs == [] <==> c.user.Some? && c.text != ""
  {
    (if c.user.None? then [CommentUserRequired] else [])
    + (if c.text == "" then [CommentTextRequired] else [])
  }

  /** The post validators, in schema order, after the setters ran. */
  function ValidatePost(p: Post): (errs: seq<string>)
    ensures errs == [] <==>
      && p.title != "" && p.content != "" && p.author.Some?
      && p.likes >= 0 && p.commentCount >= 0
      && forall i :: 0 <= i < |p.comments| ==> ValidateComment(p.comments[i]) == []
    ensures p.likes < 0 ==> BelowMinimum("likes", p.likes) in errs
  {
    (if p.title == "" then [TitleRequired] else [])
    + (if p.content == "" then [ContentRequired] else [])
    + (if p.author.None? then [AuthorRequired] else [])
    + (if p.likes < 0 then [BelowMinimum("likes", p.likes)] else [])
    + CommentErrors(p.comments)
    + (if p.commentCount < 0 then [BelowMinimum("commentCount", p.commentCount)] else [])
  }

  function CommentErrors(cs: seq<Comment>): (errs: seq<string>)
    ensures errs == [] <==> forall i :: 0 <= i < |cs| ==> ValidateComment(cs[i]) == []
  {
    if |cs| == 0 then [] else ValidateComment(cs[0]) + CommentErrors(cs[1..])
  }

  predicate Valid(p: Post) {
    ValidatePost(p) == []
  }

  /** A comment as it is stored: the `trim` setter applied to its text. */
  function NewComment(user: Option<Id>, text: string, now: int): (c: Comment)
    ensures c.text == Trim(text)
    ensures ValidateComment(c) == [] <==> user.Some? && !AllWhitespace(text)
  {
    Comment(user, Trim(text), now, now)
  }

  /** `Post.create({ title, content, author })` with `_id` `id` at `now`:
      the title is trimmed, the content kept as sent, and the counters and
      lists start empty. */
  function Create(id: Id, title: string, content: string, author: Option<Id>, now: int): (r: Result<Post, seq<string>>)
    ensures r.Failure? <==> AllWhitespace(title) || content == "" || author.None?
    ensures r.Success? ==>
      && Valid(r.value)
      && r.value.id == id && r.value.author == author
      && r.value.title == Trim(title) && r.value.content == content
      && r.value.likes == 0 && r.value.likedBy == [] && r.value.comments == []
      && r.value.commentCount == 0
      && r.value.createdAt == now == r.value.updatedAt
  {
    var p := Post(id, Trim(title), content, author, 0, [], [], 0, now, now);
    var errs := ValidatePost(p);
    if errs == [] then Success(p) else Failure(errs)
  }

  datatype Result<+T, +E> = Success(value: T) | Failure(error: E)

  function CommentJson(c: Comment): JVal {
    var base := map["text" := JStr(c.text), "createdAt" := JNum(c.createdAt), "updatedAt" := JNum(c.updatedAt)];
    JObj(if c.user.Some? then base["user" := JStr(c.user.value)] else base)
  }

  function CommentsJson(cs: seq<Comment>): (r: seq<JVal>)
    ensures |r| == |cs|
  {
    seq(|cs|, i requires 0 <= i < |cs| => CommentJson(cs[i]))
  }

  function IdsJson(ids: seq<Id>): (r: seq<JVal>)
    ensures |r| == |ids|
  {
    seq(|ids|, i requires 0 <= i < |ids| => JStr(ids[i]))
  }

  /** A post document as `res.json` sends it. */
  function ToJson(p: Post): (r: JVal)
    ensures r.JObj? && "_id" in r.fields && "likes" in r.fields
    ensures r.fields["_id"] == JStr(p.id) && r.fields["likes"] == JNum(p.likes)
  {
    var base := map[
      "_id" := JStr(p.id),
      "title" := JStr(p.title),
      "content" := JStr(p.content),
      "likes" := JNum(p.likes),
      "likedBy" := JArr(IdsJson(p.likedBy)),
      "comments" := JArr(CommentsJson(p.comments)),
      "commentCount" := JNum(p.commentCount),
      "createdAt" := JNum(p.createdAt),
      "updatedAt" := JNum(p.updatedAt)];
    JObj(if p.author.Some? then base["author" := JStr(p.author.value)] else base)
  }
}

=== FILE: posts_context.dfy ===
/** frontend/src/contexts/PostsContext.jsx: the client-side post list kept
    by `PostsProvider`, with each action written as a reducer from the
    current list to the next. Firestore, `navigator.onLine`, the clock and
    the signed-in user are inputs; a rejected Firestore write is the flag
    `writeOk`. */
module PostsContext {
  import opened Wrappers
  import opened Text

  type Email = string

  datatype Comment = Comment(id: string, content: string, author: Email, createdAt: Option<int>)

  datatype Post = Post(
    id: string, content: string, author: Email, createdAt: Option<int>,
    likes: int, unlikes: int, likedBy: seq<Email>, unlikedBy: seq<Email>,
    comments: seq<Comment>)

  /** Why an action throws: a TypeError from reading a field of `undefined`
      (no post with that id, no current user), a write the SDK refuses to
      encode (`SentinelInArray`), or a write the server rejects. */
  datatype Fault = MissingPost | NoCurrentUser | SentinelInArray | WriteRejected

  /** The list after an action, or the error it throws (the list is then
      left as it was). */
  datatype Act = Done(posts: seq<Post>) | Threw(fault: Fault)

  function Ids(posts: seq<Post>): (r: seq<string>)
    ensures |r| == |posts| && forall i :: 0 <= i < |posts| ==> r[i] == posts[i].id
  {
    seq(|posts|, i requires 0 <= i < |posts| => posts[i].id)
  }

  /** `posts.find((p) => p.id === postId)`. */
  function Find(posts: seq<Post>, id: string): (r: Option<Post>)
    ensures r.None? <==> forall i :: 0 <= i < |posts| ==> posts[i].id != id
    ensures r.Some? ==> exists i :: 0 <= i < |posts| && posts[i] == r.value && r.value.id == id
  {
    var at := IndexOf(Ids(posts), id);
    if at.None? then None else Some(posts[at.value])
  }

  /** The two reducers preserve every id, so `find` answers the same. */
  lemma FindAfterSameIds(a: seq<Post>, b: seq<Post>, id: string)
    requires |a| == |b| && forall i :: 0 <= i < |a| ==> a[i].id == b[i].id
    ensures Find(a, id).Some? <==> Find(b, id).Some?
    ensures Find(b, id).Some? ==>
      exists i :: 0 <= i < |a| && Find(a, id) == Some(a[i]) && Find(b, id) == Some(b[i])
  {
    assert Ids(a) == Ids(b);
  }

  function LikedBy(p: Post, e: Email): Post {
    p.(likedBy := p.likedBy + [e], likes := p.likes + 1)
  }

  function UnlikedBy(p: Post, e: Email): Post {
    p.(unlikedBy := p.unlikedBy + [e], unlikes := p.unlikes + 1)
  }

  /** Applies `LikedBy` to every post with id `id`, as `prevPosts.map` does. */
  function LikeEach(posts: seq<Post>, id: string, e: Email): (r: seq<Post>)
    ensures |r| == |posts|
    ensures forall i :: 0 <= i < |posts| ==>
      r[i] == if posts[i].id == id then LikedBy(posts[i], e) else posts[i]
  {
    seq(|posts|, i requires 0 <= i < |posts| => if posts[i].id == id then LikedBy(posts[i], e) else posts[i])
  }

  function UnlikeEach(posts: seq<Post>, id: string, e: Email): (r: seq<Post>)
    ensures |r| == |posts|
    ensures forall i :: 0 <= i < |posts| ==>
      r[i] == if posts[i].id == id then UnlikedBy(posts[i], e) else posts[i]
  {
    seq(|posts|, i requires 0 <= i < |posts| => if posts[i].id == id then UnlikedBy(posts[i], e) else posts[i])
  }

  /** `likePost(postId)` with `isOnline == online` and `currentUser`'s
      email `user`. */
  function LikePost(posts: seq<Post>, id: string, online: bool, user: Option<Email>, writeOk: bool): (r: Act)
    ensures !online || user.None? ==> r == Done(posts)
    ensures online && user.Some? && Find(posts, id).None? ==> r == Threw(MissingPost)
    ensures r.Done? ==> |r.posts| == |posts| && forall i :: 0 <= i < |posts| ==>
      && r.posts[i].id == posts[i].id
      && r.posts[i].unlikedBy == posts[i].unlikedBy && r.posts[i].unlikes == posts[i].unlikes
      && (posts[i].id != id ==> r.posts[i] == posts[i])
    ensures online && user.Some? && Find(posts, id).Some? ==>
      if user.value in Find(posts, id).value.likedBy then r == Done(posts)
      else if !writeOk then r == Threw(WriteRejected)
      else r.Done? && forall i :: 0 <= i < |posts| && posts[i].id == id ==>
        r.posts[i] == posts[i].(likedBy := posts[i].likedBy + [user.value], likes := posts[i].likes + 1)
  {
    if !online || user.None? then Done(posts)
    else
      match Find(posts, id)
      case None => Threw(MissingPost)
      case Some(p) =>
        if user.value in p.likedBy then Done(posts)
        else if !writeOk then Threw(WriteRejected)
        else Done(LikeEach(posts, id, user.value))
  }

  /** `unlikePost(postId)`: unlike `likePost` it does not check for a
      current user, so a signed-out call throws on `currentUser.email`. */
  function UnlikePost(posts: seq<Post>, id: string, online: bool, user: Option<Email>, writeOk: bool): (r: Act)
    ensures !online ==> r == Done(posts)
    ensures online && Find(posts, id).None? ==> r == Threw(MissingPost)
    ensures online && Find(posts, id).Some? && user.None? ==> r == Threw(NoCurrentUser)
    ensures r.Done? ==> |r.posts| == |posts| && forall i :: 0 <= i < |posts| ==>
      && r.posts[i].id == posts[i].id
      && r.posts[i].likedBy == posts[i].likedBy && r.posts[i].likes == posts[i].likes
      && (posts[i].id != id ==> r.posts[i] == posts[i])
    ensures online && user.Some? && Find(posts, id).Some? ==>
      if user.value in Find(posts, id).value.unlikedBy then r == Done(posts)
      else if !writeOk then r == Threw(WriteRejected)
      else r.Done? && forall i :: 0 <= i < |posts| && posts[i].id == id ==>
        r.posts[i] == posts[i].(unlikedBy := posts[i].unlikedBy + [user.value], unlikes := posts[i].unlikes + 1)
  {
    if !online then Done(posts)
    else
      match Find(posts, id)
      case None => Threw(MissingPost)
      case Some(p) =>
        if user.None? then Threw(NoCurrentUser)
        else if user.value in p.unlikedBy then Done(posts)
        else if !writeOk then Threw(WriteRejected)
        else Done(UnlikeEach(posts, id, user.value))
  }

  /** A second like by the same user changes nothing. */
  lemma LikeIdempotent(posts: seq<Post>, id: string, e: Email)
    requires LikePost(posts, id, true, Some(e), true).Done?
    ensures var once := LikePost(posts, id, true, Some(e), true).posts;
      LikePost(once, id, true, Some(e), true) == Done(once)
  {
    var once := LikePost(posts, id, true, Some(e), true).posts;
    FindAfterSameIds(posts, once, id);
    if Find(posts, id).Some? && e !in Find(posts, id).value.likedBy {
      var i :| 0 <= i < |posts| && Find(posts, id) == Some(posts[i]) && Find(once, id) == Some(once[i]);
      assert e in once[i].likedBy;
    }
  }

  /** Likes and unlikes are kept apart: after a like and an unlike of the
      same post, the user appears in both lists. */
  lemma LikeThenUnlike(posts: seq<Post>, id: string, e: Email)
    requires Find(posts, id).Some?
    ensures LikePost(posts, id, true, Some(e), true).Done?
    ensures var liked := LikePost(posts, id, true, Some(e), true).posts;
      && UnlikePost(liked, id, true, Some(e), true).Done?
      && var both := UnlikePost(liked, id, true, Some(e), true).posts;
      && exists i :: 0 <= i < |both| && both[i].id == id && e in both[i].likedBy && e in both[i].unlikedBy
  {
    var liked := LikePost(posts, id, true, Some(e), true).posts;
    FindAfterSameIds(posts, liked, id);
    var both := UnlikePost(liked, id, true, Some(e), true).posts;
    var i :| 0 <= i < |posts| && posts[i] == Find(posts, id).value && posts[i].id == id;
    assert e in liked[i].likedBy;
    assert both[i].id == id && both[i].likedBy == liked[i].likedBy;
  }

  /** The post `addPost` builds: no likes, unlikes or comments. */
  function Fresh(id: string, content: string, author: Email, now: int): (p: Post)
    ensures p.likes == 0 && p.unlikes == 0 && p.likedBy == [] && p.unlikedBy == [] && p.comments == []
    ensures p.id == id && p.content == content && p.author == author && p.createdAt == Some(now)
  {
    Post(id, content, author, Some(now), 0, 0, [], [], [])
  }

  /** `addPost(content)` at `Date.now() == now`; `docId` is the id Firestore
      assigns when online. Offline, the id is the clock reading as text. */
  function AddPost(posts: seq<Post>, content: string, online: bool, user: Option<Email>, now: int, docId: string, writeOk: bool): (r: Act)
    ensures user.None? <==> r == Threw(NoCurrentUser)
    ensures r.Done? ==> |r.posts| == |posts| + 1 && r.posts[1..] == posts
    ensures r.Done? ==> r.posts[0] == Fresh(if online then docId else IntToString(now), content, user.value, now)
    ensures user.Some? && online && !writeOk ==> r == Threw(WriteRejected)
    ensures user.Some? && !online ==> r.Done?
  {
    if user.None? then Threw(NoCurrentUser)
    else if !online then Done([Fresh(IntToString(now), content, user.value, now)] + posts)
    else if !writeOk then Threw(WriteRejected)
    else Done([Fresh(docId, content, user.value, now)] + posts)
  }

  function WithComment(posts: seq<Post>, id: string, c: Comment): (r: seq<Post>)
    ensures |r| == |posts|
    ensures forall i :: 0 <= i < |posts| ==>
      r[i] == if posts[i].id == id then posts[i].(comments := posts[i].comments + [c]) else posts[i]
  {
    seq(|posts|, i requires 0 <= i < |posts| =>
      if posts[i].id == id then posts[i].(comments := posts[i].comments + [c]) else posts[i])
  }

  /** What a new comment's `createdAt` holds when it is written: the
      `serverTimestamp()` sentinel, or the client's clock reading. */
  datatype Stamp = ServerTimestamp | ClientTime(ms: int)

  /** The Firestore SDK refuses a `serverTimestamp()` sentinel inside an
      `arrayUnion` element (the sentinel may only stand as a field of the
      `update` or `set` data itself); `updateDoc` then throws before
      anything is sent. */
  predicate UnionElementAccepted(s: Stamp) {
    s.ClientTime?
  }

  /** The body of `addComment` with the stored comment's `createdAt` given
      by `stamp`. The local copy always carries the client time. */
  function CommentWrite(posts: seq<Post>, id: string, content: string, online: bool, user: Option<Email>,
                        now: int, stamp: Stamp, writeOk: bool): Act {
    if !online then Done(posts)
    else if user.None? then Threw(NoCurrentUser)
    else if !UnionElementAccepted(stamp) then Threw(SentinelInArray)
    else if !writeOk then Threw(WriteRejected)
    else Done(WithComment(posts, id, Comment(IntToString(now), content, user.value, Some(now))))
  }

  /** `addComment(postId, content)` at `Date.now() == now`, as written: the
      comment sent through `arrayUnion` holds `serverTimestamp()`, so once
      online with a user every call throws and the list stays as it was. */
  function AddComment(posts: seq<Post>, id: string, content: string, online: bool, user: Option<Email>, now: int, writeOk: bool): (r: Act)
    ensures !online ==> r == Done(posts)
    ensures online && user.None? ==> r == Threw(NoCurrentUser)
    ensures online && user.Some? ==> r == Threw(SentinelInArray)
    ensures r.Done? <==> !online
  {
    CommentWrite(posts, id, content, online, user, now, ServerTimestamp, writeOk)
  }

  /** `addComment` with the stored comment stamped by the client clock
      (`createdAt: new Date()`), as the local copy already is. Offline it
      does nothing; the post need not be in the local list. */
  function AddCommentCorrected(posts: seq<Post>, id: string, content: string, online: bool, user: Option<Email>, now: int, writeOk: bool): (r: Act)
    ensures !online ==> r == Done(posts)
    ensures online && user.None? ==> r == Threw(NoCurrentUser)
    ensures online && user.Some? && !writeOk ==> r == Threw(WriteRejected)
    ensures online && user.Some? && writeOk ==> r.Done?
    ensures r.Done? ==> |r.posts| == |posts| && forall i :: 0 <= i < |posts| ==>
      if posts[i].id == id && online then
        && |r.posts[i].comments| == |posts[i].comments| + 1
        && r.posts[i].comments[..|posts[i].comments|] == posts[i].comments
        && r.posts[i].comments[|posts[i].comments|] == Comment(IntToString(now), content, user.value, Some(now))
        && r.posts[i] == posts[i].(comments := r.posts[i].comments)
      else r.posts[i] == posts[i]
  {
    CommentWrite(posts, id, content, online, user, now, ClientTime(now), writeOk)
  }

  /** After an accepted corrected comment, `find` on the post's id gives
      the post it gave before with the new comment last. */
  lemma CorrectedCommentFound(posts: seq<Post>, id: string, content: string, user: Email, now: int)
    requires Find(posts, id).Some?
    ensures var r := AddCommentCorrected(posts, id, content, true, Some(user), now, true);
      && r.Done? && Find(r.posts, id).Some?
      && Find(r.posts, id).value
         == Find(posts, id).value.(comments := Find(posts, id).value.comments + [Comment(IntToString(now), content, user, Some(now))])
  {
    var r := AddCommentCorrected(posts, id, content, true, Some(user), now, true);
    FindAfterSameIds(posts, r.posts, id);
  }

  /** A Firestore document as `getDocs` returns it, where any field the
      writer left out is absent. */
  datatype RawComment = RawComment(id: string, content: string, author: Email, createdAt: Option<int>)
  datatype RawDoc = RawDoc(
    id: string, content: string, author: Email, createdAt: Option<int>,
    likes: Option<int>, unlikes: Option<int>, likedBy: Option<seq<Email>>,
    unlikedBy: Option<seq<Email>>, comments: Option<seq<RawComment>>)

  function CommentOf(c: RawComment): Comment {
    Comment(c.id, c.content, c.author, c.createdAt)
  }

  /** The mapping applied to each fetched document: absent arrays become
      empty and absent counters 0. */
  function FromDoc(d: RawDoc): (p: Post)
    ensures p.id == d.id && p.content == d.content && p.createdAt == d.createdAt
    ensures p.likes == d.likes.GetOr(0) && p.unlikes == d.unlikes.GetOr(0)
    ensures p.likedBy == d.likedBy.GetOr([]) && p.unlikedBy == d.unlikedBy.GetOr([])
    ensures d.comments.None? ==> p.comments == []
    ensures d.comments.Some? ==> |p.comments| == |d.comments.value|
  {
    var cs := d.comments.GetOr([]);
    Post(d.id, d.content, d.author, d.createdAt,
      d.likes.GetOr(0), d.unlikes.GetOr(0), d.likedBy.GetOr([]), d.unlikedBy.GetOr([]),
      seq(|cs|, i requires 0 <= i < |cs| => CommentOf(cs[i])))
  }

  /** The mount-time fetch: `fetched` is the query's documents (already
      newest first) or `None` when `getDocs` rejects, which keeps the
      current list. `loading` ends false either way. */
  function Fetch(posts: seq<Post>, fetched: Option<seq<RawDoc>>): (r: (seq<Post>, bool))
    ensures fetched.None? ==> r.0 == posts
    ensures fetched.Some? ==> |r.0| == |fetched.value| && forall i :: 0 <= i < |r.0| ==> r.0[i] == FromDoc(fetched.value[i])
    ensures !r.1
  {
    match fetched
    case None => (posts, false)
    case Some(ds) => (seq(|ds|, i requires 0 <= i < |ds| => FromDoc(ds[i])), false)
  }

  /** A fetched document with no counters and no arrays reads as a post with
      no likes, unlikes or comments, exactly as `addPost` would have made. */
  lemma BareDocIsFresh(id: string, content: string, author: Email, now: int)
    ensures FromDoc(RawDoc(id, content, author, Some(now), None, None, None, None, None))
      == Fresh(id, content, author, now)
  {
  }
}

=== FILE: server.dfy ===
/** The Express application of backend/index.js reduced to its two
    decisions: the final status and JSON body chosen for an error that a
    handler threw, and the CORS origin predicate. Handlers of the other
    modules return an `Outcome`; `Finish` turns it into what the client
    receives. */
module Server {
  import opened Wrappers
  import opened Json

  /** The process environment the backend reads. */
  datatype Env = Env(nodeEnv: Option<string>, jwtSecret: Option<string>)

  predicate Production(env: Env) {
    env.nodeEnv == Some("production")
  }

  /** A request body: the string-valued JSON object the frontend sends. */
  type Body = map<string, string>

  /** The field is truthy: present and not the empty string. */
  predicate Present(body: Body, key: string) {
    key in body && body[key] != ""
  }

  /** A thrown JavaScript error, with the properties `errorHandler` reads:
      `name`, `message`, `code`, the messages of `errors` (Mongoose
      validation) in order, `keyValue` (duplicate key) in key order, and
      `stack`, which may be undefined. */
  datatype JsError = JsError(
    name: string,
    message: string,
    code: Option<int>,
    fieldMessages: seq<string>,
    keyValue: seq<(string, string)>,
    stack: Option<string>)

  const ValidationName := "ValidationError"
  const ValidationSuffix := " validation failed"
  const MongoName := "MongoServerError"
  const DuplicateKeyPrefix := "E11000 duplicate key error dup key: { "
  const DuplicateFieldPrefix := "Duplicate field value entered: "
  const AlreadyExists := "' already exists."

  /** `new Error(message)`. Its stack starts with the message; the frames
      below are left out. */
  function PlainError(message: string): (e: JsError)
    ensures e.name == "Error" && e.message == message && e.code.None?
  {
    JsError("Error", message, None, [], [], Some("Error: " + message))
  }

  /** The Mongoose `ValidationError` carrying one message per failing path. */
  function ValidationError(model: string, messages: seq<string>): (e: JsError)
    ensures e.name == ValidationName && e.fieldMessages == messages
  {
    var m := model + ValidationSuffix;
    JsError(ValidationName, m, None, messages, [], Some(ValidationName + ": " + m))
  }

  /** The MongoDB duplicate-key error (`E11000`) for one unique field. */
  function DuplicateKeyError(field: string, value: string): (e: JsError)
    ensures e.code == Some(11000) && e.keyValue == [(field, value)]
  {
    var m := DuplicateKeyPrefix + field + ": \"" + value + "\" }";
    JsError(MongoName, m, Some(11000), [], [(field, value)], Some(MongoName + ": " + m))
  }

  /** What a handler did: sent a response, or threw after having set
      `res.statusCode` to `status` (200 when it never set it). */
  datatype Outcome =
    | Sent(status: int, body: JVal)
    | Raised(status: int, err: JsError)

  datatype Response = Response(status: int, body: JVal)

  const GenericMessage := "An unexpected server error occurred."
  const ValidationMessage := "Validation Failed"

  /** The `stack` property of an error body: null in production, otherwise
      the error's stack, dropped by `JSON.stringify` when undefined. */
  function WithStack(fields: Object, err: JsError, env: Env): (r: Object)
    ensures Production(env) ==> "stack" in r && r["stack"] == JNull
    ensures !Production(env) && err.stack.None? ==> "stack" !in r
    ensures forall k :: k != "stack" ==> (k in r <==> k in fields)
    ensures forall k :: k != "stack" && k in fields ==> r[k] == fields[k]
  {
    if Production(env) then fields["stack" := JNull]
    else match err.stack
      case Some(s) => fields["stack" := JStr(s)]
      case None => fields - {"stack"}
  }

  function Strings(ss: seq<string>): (r: seq<JVal>)
    ensures |r| == |ss|
    ensures forall i :: 0 <= i < |ss| ==> r[i] == JStr(ss[i])
  {
    seq(|ss|, i requires 0 <= i < |ss| => JStr(ss[i]))
  }

  /** The duplicate-key branch of `errorHandler`: 400, naming the first
      duplicated field and its value. With no field named, both read as
      "undefined" and the answer has no `field`. */
  function DuplicateResponse(err: JsError, env: Env): (r: Response)
    ensures r.status == 400 && r.body.JObj? && "message" in r.body.fields
    ensures Production(env) ==> "stack" in r.body.fields && r.body.fields["stack"] == JNull
    ensures |err.keyValue| > 0 <==> "field" in r.body.fields
    ensures |err.keyValue| > 0 ==>
      && r.body.fields["field"] == JStr(err.keyValue[0].0)
      && r.body.fields["message"] == JStr(DuplicateFieldPrefix + err.keyValue[0].0 + " '" + err.keyValue[0].1 + AlreadyExists)
    ensures |err.keyValue| == 0 ==>
      r.body.fields["message"] == JStr(DuplicateFieldPrefix + "undefined 'undefined" + AlreadyExists)
  {
    assert "message" != "stack" && "field" != "stack" by {
      assert "message"[0] != "stack"[0] && "field"[0] != "stack"[0];
    }
    if |err.keyValue| == 0 then
      Response(400, JObj(WithStack(map["message" := JStr(DuplicateFieldPrefix + "undefined 'undefined" + AlreadyExists)], err, env)))
    else
      var (field, value) := err.keyValue[0];
      var message := DuplicateFieldPrefix + field + " '" + value + AlreadyExists;
      Response(400, JObj(WithStack(map["message" := JStr(message), "field" := JStr(field)], err, env)))
  }

  /** `errorHandler(err, req, res, next)` with `res.statusCode == resStatus`. */
  function ErrorHandler(err: JsError, resStatus: int, env: Env): (r: Response)
    ensures r.status >= 400
    ensures r.body.JObj? && "message" in r.body.fields
    ensures Production(env) ==> "stack" in r.body.fields && r.body.fields["stack"] == JNull
    ensures err.name == ValidationName ==>
      && r.status == 400 && r.body.fields["message"] == JStr(ValidationMessage)
      && "errors" in r.body.fields && r.body.fields["errors"] == JArr(Strings(err.fieldMessages))
    ensures err.name != ValidationName && err.code == Some(11000) ==>
      r.status == 400 && (|err.keyValue| > 0 <==> "field" in r.body.fields)
    ensures err.name != ValidationName && err.code == Some(11000) && |err.keyValue| > 0 ==>
      && r.body.fields["field"] == JStr(err.keyValue[0].0)
      && r.body.fields["message"] == JStr(DuplicateFieldPrefix + err.keyValue[0].0 + " '" + err.keyValue[0].1 + AlreadyExists)
    ensures err.name != ValidationName && err.code == Some(11000) && |err.keyValue| == 0 ==>
      r.body.fields["message"] == JStr(DuplicateFieldPrefix + "undefined 'undefined" + AlreadyExists)
    ensures err.name != ValidationName && err.code != Some(11000) ==>
      && r.status == (if resStatus >= 400 then resStatus else 500)
      && r.body.fields["message"] == JStr(if err.message == "" then GenericMessage else err.message)
  {
    assert "message" != "stack" && "errors" != "stack" by {
      assert "message"[0] != "stack"[0] && "errors"[0] != "stack"[0];
    }
    if err.name == ValidationName then
      Response(400, JObj(WithStack(map["message" := JStr(ValidationMessage),
                                       "errors" := JArr(Strings(err.fieldMessages))], err, env)))
    else if err.code == Some(11000) then DuplicateResponse(err, env)
    else
      var status := if resStatus >= 400 then resStatus else 500;
      var message := if err.message == "" then GenericMessage else err.message;
      Response(status, JObj(WithStack(map["message" := JStr(message)], err, env)))
  }

  /** The response the client receives for a handler's outcome. */
  function Finish(o: Outcome, env: Env): (r: Response)
    ensures o.Sent? ==> r == Response(o.status, o.body)
    ensures o.Raised? ==> r.status >= 400
  {
    match o
    case Sent(status, body) => Response(status, body)
    case Raised(status, err) => ErrorHandler(err, status, env)
  }

  /** The message of an error response, or "" for any other body. */
  function MessageOf(r: Response): string {
    if r.body.JObj? && "message" in r.body.fields && r.body.fields["message"].JStr?
    then r.body.fields["message"].s else ""
  }

  /** A validation error wins over a duplicate-key code on the same error. */
  lemma ValidationBeforeDuplicate(err: JsError, resStatus: int, env: Env)
    requires err.name == ValidationName && err.code == Some(11000)
    ensures MessageOf(ErrorHandler(err, resStatus, env)) == ValidationMessage
    ensures "field" !in ErrorHandler(err, resStatus, env).body.fields
  {
  }

  /** A plain error thrown after `res.status(s)` reaches the client with
      status `s` and its own message, in every environment. */
  lemma RaisedStatusKept(message: string, s: int, env: Env)
    requires 400 <= s && message != ""
    ensures Finish(Raised(s, PlainError(message)), env).status == s
    ensures MessageOf(Finish(Raised(s, PlainError(message)), env)) == message
  {
  }

  const AllowedOrigins: seq<string> := [
    "http://localhost:5173",
    "http://localhost:5174",
    "http://localhost:5175",
    "http://localhost:5176",
    "http://localhost:5177",
    "http://localhost:5178",
    "http://localhost:5179",
    "https://buzznet.vercel.app",
    "https://buzznet-api.vercel.app",
    "https://buzznet-xi.vercel.app"
  ]

  /** The CORS `origin` callback's decision. A missing `Origin` header and
      an empty one are both falsy. */
  predicate OriginAllowed(env: Env, origin: Option<string>) {
    !Production(env) || origin.None? || origin == Some("") || origin.value in AllowedOrigins
  }

  /** Outside production every origin passes; in production exactly the
      absent origin and the listed ones do. */
  lemma CorsPolicy(env: Env, origin: string)
    ensures !Production(env) ==> OriginAllowed(env, Some(origin))
    ensures Production(env) ==>
      (OriginAllowed(env, Some(origin)) <==> origin == "" || origin in AllowedOrigins)
    ensures OriginAllowed(env, None)
    ensures Production(env) ==> !OriginAllowed(env, Some("https://example.com"))
  {
  }
}

=== FILE: serverless_api.dfy ===
/** backend/api/index.js: the stand-alone serverless API, which talks to the
    `posts` collection through the MongoDB driver directly, with no schema,
    no validators and no authentication. The connection is a parameter;
    `ConnectAsWritten` is what `connectToDatabase` yields as the file
    stands. */
module ServerlessApi {
  import opened Json
  import opened Server
  import Text
  import Listing

  type Id = string

  /** A document as `insertOne` stores it: the body's fields as given. */
  datatype Doc = Doc(id: Id, title: string, content: string, author: string, likes: int, createdAt: int)

  type Docs = map<Id, Doc>

  datatype Connection = Connected(docs: Docs) | ConnectFailed(message: string)

  datatype Step = Step(conn: Connection, response: Response)

  const FieldsMissing := "Please provide all required fields"
  const NotFound := "Post not found"
  const Deleted := "Post deleted successfully"
  /** The ReferenceError raised by `client.connect()` on an undeclared name. */
  const ClientUndefined := "client is not defined"
  /** The bson library's message for an id `new ObjectId` cannot parse. */
  const BadObjectId := "input must be a 24 character hex string, 12 byte Uint8Array, or an integer"

  /** `connectToDatabase` as written: `cachedDb` is only assigned after
      `client.connect()` succeeds, and `client` is never declared, so every
      call throws before the cache is filled. */
  const ConnectAsWritten: Connection := ConnectFailed(ClientUndefined)

  ghost predicate Consistent(docs: Docs) {
    forall k :: k in docs ==> docs[k].id == k
  }

  predicate HexDigit(c: char) {
    '0' <= c <= '9' || 'a' <= c <= 'f' || 'A' <= c <= 'F'
  }

  /** A string `new ObjectId(s)` accepts. */
  predicate ObjectIdString(s: string) {
    |s| == 24 && forall i :: 0 <= i < |s| ==> HexDigit(s[i])
  }

  /** The text of an ObjectId as the driver prints it (`toHexString`):
      24 hex digits, none of them an upper-case letter. Generated `_id`s
      are stored under this spelling. */
  predicate CanonicalId(s: string) {
    ObjectIdString(s) && forall i :: 0 <= i < |s| ==> !('A' <= s[i] <= 'F')
  }

  /** The stored `_id` that `new ObjectId(s)` denotes: hex digits are read
      without regard to letter case, so it is the lower-case spelling. */
  function Key(s: string): (k: Id)
    ensures ObjectIdString(s) ==> CanonicalId(k)
    ensures |k| == |s| && forall i :: 0 <= i < |s| && !('A' <= s[i] <= 'Z') ==> k[i] == s[i]
  {
    Text.ToLower(s)
  }

  /** Two spellings that differ only in the case of their hex letters
      denote the same document, and a canonical id denotes itself. */
  lemma KeyIgnoresCase(a: string, b: string)
    requires ObjectIdString(a) && ObjectIdString(b)
    requires forall i :: 0 <= i < |a| ==> Text.LowerChar(a[i]) == Text.LowerChar(b[i])
    ensures Key(a) == Key(b)
    ensures CanonicalId(a) ==> Key(a) == a
  {
    assert Key(a) == Key(b);
  }

  const DuplicatePrefix := "E11000 duplicate key error collection: buzznet.posts index: _id_ dup key: { _id: ObjectId('"
  const DuplicateSuffix := "') }"

  function DuplicateIdMessage(id: Id): string {
    DuplicatePrefix + id + DuplicateSuffix
  }

  /** The shared `catch` of every handler. */
  function Failed(message: string): (r: Response)
    ensures r.status == 500 && MessageOf(r) == message
  {
    Response(500, JObj(map["message" := JStr(message)]))
  }

  function Message(status: int, message: string): (r: Response)
    ensures r.status == status && MessageOf(r) == message
  {
    Response(status, JObj(map["message" := JStr(message)]))
  }

  function DocJson(d: Doc): (r: JVal)
    ensures r.JObj? && "_id" in r.fields && "likes" in r.fields
    ensures r.fields["_id"] == JStr(d.id) && r.fields["likes"] == JNum(d.likes)
  {
    JObj(map[
      "_id" := JStr(d.id), "title" := JStr(d.title), "content" := JStr(d.content),
      "author" := JStr(d.author), "likes" := JNum(d.likes), "createdAt" := JNum(d.createdAt)])
  }

  function CreatedAt(d: Doc): int { d.createdAt }
  function IdOf(d: Doc): Id { d.id }

  /** `GET /api/posts`: every document, newest first. */
  method ListPosts(conn: Connection) returns (list: seq<Doc>, r: Response)
    requires conn.Connected? ==> Consistent(conn.docs)
    ensures conn.ConnectFailed? ==> list == [] && r == Failed(conn.message)
    ensures conn.Connected? ==>
      && Listing.Descending(list, CreatedAt)
      && |list| == |conn.docs|
      && (forall k :: k in conn.docs ==> conn.docs[k] in list)
      && (forall i :: 0 <= i < |list| ==> list[i].id in conn.docs && conn.docs[list[i].id] == list[i])
      && r.status == 200 && r.body.JArr? && |r.body.items| == |list|
      && (forall i :: 0 <= i < |list| ==> r.body.items[i] == DocJson(list[i]))
  {
    if conn.ConnectFailed? {
      return [], Failed(conn.message);
    }
    list := Listing.NewestFirst(conn.docs, CreatedAt, IdOf);
    var items := seq(|list|, i requires 0 <= i < |list| => DocJson(list[i]));
    r := Response(200, JArr(items));
  }

  /** `POST /api/posts` with `req.body == body`; `newId` is the `_id` the
      driver generates and `now` the `new Date()` of the insert. The field
      check happens before any database access. */
  function CreatePost(conn: Connection, body: Body, newId: Id, now: int): (r: Step)
    ensures conn.Connected? && Consistent(conn.docs) ==> r.conn.Connected? && Consistent(r.conn.docs)
    ensures !(Present(body, "title") && Present(body, "content") && Present(body, "author")) <==>
      r == Step(conn, Message(400, FieldsMissing))
    ensures r.response.status == 201 <==>
      && Present(body, "title") && Present(body, "content") && Present(body, "author")
      && conn.Connected? && newId !in conn.docs
    ensures r.response.status == 201 ==>
      var d := Doc(newId, body["title"], body["content"], body["author"], 0, now);
      r == Step(Connected(conn.docs[newId := d]), Response(201, DocJson(d)))
    ensures r.response.status != 201 ==> r.conn == conn
    ensures Present(body, "title") && Present(body, "content") && Present(body, "author") ==>
      && (conn.ConnectFailed? ==> r == Step(conn, Failed(conn.message)))
      && (conn.Connected? && newId in conn.docs ==> r == Step(conn, Failed(DuplicateIdMessage(newId))))
  {
    if !(Present(body, "title") && Present(body, "content") && Present(body, "author")) then
      Step(conn, Message(400, FieldsMissing))
    else if conn.ConnectFailed? then Step(conn, Failed(conn.message))
    else if newId in conn.docs then Step(conn, Failed(DuplicateIdMessage(newId)))
    else
      var d := Doc(newId, body["title"], body["content"], body["author"], 0, now);
      Step(Connected(conn.docs[newId := d]), Response(201, DocJson(d)))
  }

  /** `DELETE /api/posts/:id` for `req.params.id == id`; the filter
      `{ _id: new ObjectId(id) }` matches the document stored under
      `Key(id)`. */
  function DeletePost(conn: Connection, id: Id): (r: Step)
    ensures conn.Connected? && Consistent(conn.docs) ==> r.conn.Connected? && Consistent(r.conn.docs)
    ensures conn.ConnectFailed? ==> r == Step(conn, Failed(conn.message))
    ensures conn.Connected? && !ObjectIdString(id) ==> r == Step(conn, Failed(BadObjectId))
    ensures conn.Connected? && ObjectIdString(id) ==>
      if Key(id) in conn.docs then r == Step(Connected(conn.docs - {Key(id)}), Message(200, Deleted))
      else r == Step(conn, Message(404, NotFound))
  {
    if conn.ConnectFailed? then Step(conn, Failed(conn.message))
    else if !ObjectIdString(id) then Step(conn, Failed(BadObjectId))
    else if Key(id) !in conn.docs then Step(conn, Message(404, NotFound))
    else Step(Connected(conn.docs - {Key(id)}), Message(200, Deleted))
  }

  /** `PATCH /api/posts/:id/like` for `req.params.id == id`: `$inc` by one
      on the document stored under `Key(id)`, answering with the document
      after the update. */
  function LikePost(conn: Connection, id: Id): (r: Step)
    ensures conn.Connected? && Consistent(conn.docs) ==> r.conn.Connected? && Consistent(r.conn.docs)
    ensures conn.ConnectFailed? ==> r == Step(conn, Failed(conn.message))
    ensures conn.Connected? && !ObjectIdString(id) ==> r == Step(conn, Failed(BadObjectId))
    ensures conn.Connected? && ObjectIdString(id) && Key(id) !in conn.docs ==> r == Step(conn, Message(404, NotFound))
    ensures r.response.status == 200 ==>
      var k := Key(id);
      && conn.Connected? && ObjectIdString(id) && k in conn.docs && r.conn.Connected?
      && r.conn.docs.Keys == conn.docs.Keys
      && r.conn.docs[k] == conn.docs[k].(likes := conn.docs[k].likes + 1)
      && (forall j :: j in conn.docs && j != k ==> r.conn.docs[j] == conn.docs[j])
      && r.response.body == DocJson(r.conn.docs[k])
    ensures r.response.status != 200 ==> r.conn == conn
  {
    if conn.ConnectFailed? then Step(conn, Failed(conn.message))
    else if !ObjectIdString(id) then Step(conn, Failed(BadObjectId))
    else
      var k := Key(id);
      if k !in conn.docs then Step(conn, Message(404, NotFound))
      else
        var d := conn.docs[k].(likes := conn.docs[k].likes + 1);
        Step(Connected(conn.docs[k := d]), Response(200, DocJson(d)))
  }

  /** Deleting and liking do not depend on the letter case of the hex
      digits in the path: an upper-case spelling of a stored id reaches the
      same document. */
  lemma HandlersIgnoreCase(conn: Connection, a: Id, b: Id)
    requires ObjectIdString(a) && ObjectIdString(b)
    requires forall i :: 0 <= i < |a| ==> Text.LowerChar(a[i]) == Text.LowerChar(b[i])
    ensures DeletePost(conn, a) == DeletePost(conn, b)
    ensures LikePost(conn, a) == LikePost(conn, b)
  {
    KeyIgnoresCase(a, b);
  }

  /** With the connection as written, no request that gets past the field
      check ever reaches the collection: each answers 500 with the
      ReferenceError's message. */
  lemma EveryDatabaseRouteFails(body: Body, id: Id, newId: Id, now: int)
    requires Present(body, "title") && Present(body, "content") && Present(body, "author")
    ensures CreatePost(ConnectAsWritten, body, newId, now).response == Failed(ClientUndefined)
    ensures DeletePost(ConnectAsWritten, id).response == Failed(ClientUndefined)
    ensures LikePost(ConnectAsWritten, id).response == Failed(ClientUndefined)
    ensures MessageOf(Failed(ClientUndefined)) == "client is not defined"
  {
  }

  /** With a working connection, a created post can be liked once to one
      like and then deleted, after which it is gone. */
  lemma CreateLikeDelete(docs: Docs, body: Body, newId: Id, now: int)
    requires Consistent(docs) && newId !in docs && CanonicalId(newId)
    requires Present(body, "title") && Present(body, "content") && Present(body, "author")
    ensures var c := CreatePost(Connected(docs), body, newId, now);
      && c.response.status == 201
      && var l := LikePost(c.conn, newId);
      && l.response.status == 200 && l.conn.docs[newId].likes == 1
      && var d := DeletePost(l.conn, newId);
      && d.response == Message(200, Deleted) && d.conn == Connected(docs)
      && LikePost(d.conn, newId).response == Message(404, NotFound)
  {
    var c := CreatePost(Connected(docs), body, newId, now);
    var l := LikePost(c.conn, newId);
    var d := DeletePost(l.conn, newId);
    KeyIgnoresCase(newId, newId);
    assert d.conn.docs == docs;
  }
}

=== FILE: storage.dfy ===
/** The browser's `localStorage` as a string map, and the offline-post list
    that the post form keeps there as JSON. `JSON.stringify`/`JSON.parse`
    of that list are uninterpreted, tied together by the round-trip
    predicate `Sound`. */
module Storage {
  import opened Wrappers

  type Store = map<string, string>

  /** `localStorage.getItem(key)` is truthy: present and non-empty. */
  predicate Has(store: Store, key: string) {
    key in store && store[key] != ""
  }

  /** A post saved while the backend was unreachable. */
  datatype OfflinePost = OfflinePost(
    title: string, content: string, author: string, id: string,
    createdAt: int, likes: int, isOffline: bool)

  /** `JSON.stringify` of a list of offline posts and `JSON.parse` back to
      one, `None` when the text is not such a list (parse throws, or the
      value cannot be spread). */
  datatype Codec = Codec(stringify: seq<OfflinePost> -> string, parse: string -> Option<seq<OfflinePost>>)

  ghost predicate Sound(c: Codec) {
    forall ps :: c.parse(c.stringify(ps)) == Some(ps)
  }

  /** `JSON.parse(localStorage.getItem(key) || '[]')`. */
  function Saved(c: Codec, store: Store, key: string): (r: Option<seq<OfflinePost>>)
    ensures !Has(store, key) ==> r == Some([])
    ensures Has(store, key) ==> r == c.parse(store[key])
  {
    if Has(store, key) then c.parse(store[key]) else Some([])
  }

  /** What was stored under `key` with a sound codec reads back. */
  lemma SavedRoundTrip(c: Codec, store: Store, key: string, ps: seq<OfflinePost>)
    requires Sound(c) && c.stringify(ps) != ""
    ensures Saved(c, store[key := c.stringify(ps)], key) == Some(ps)
  {
  }
}

=== FILE: text.dfy ===
/** String utilities with the semantics of the JavaScript built-ins the
    repository calls: `trim`, `toLowerCase`, `includes`, `startsWith`,
    `split(' ')[1]` and the decimal rendering of integers. */
module Text {
  import opened Wrappers

  /** The characters `String.prototype.trim` removes: the ECMAScript
      WhiteSpace and LineTerminator sets. */
  predicate IsWhitespace(c: char) {
    || c == ' ' || c == '\t' || c == '\n' || c == '\r'
    || c == '\U{000B}' || c == '\U{000C}' || c == '\U{00A0}' || c == '\U{FEFF}'
    || c == '\U{1680}' || ('\U{2000}' <= c <= '\U{200A}')
    || c == '\U{2028}' || c == '\U{2029}' || c == '\U{202F}' || c == '\U{205F}'
    || c == '\U{3000}'
  }

  predicate AllWhitespace(s: string) {
    forall i :: 0 <= i < |s| ==> IsWhitespace(s[i])
  }

  /** The first position at or after `i` that does not hold whitespace,
      or `|s|` when there is none. */
  function SkipLeading(s: string, i: nat): (n: nat)
    requires i <= |s|
    ensures i <= n <= |s|
    ensures forall k :: i <= k < n ==> IsWhitespace(s[k])
    ensures n == |s| || !IsWhitespace(s[n])
    decreases |s| - i
  {
    if i < |s| && IsWhitespace(s[i]) then SkipLeading(s, i + 1) else i
  }

  /** The smallest `n` in `lo..j` such that `s[n..j]` is all whitespace. */
  function SkipTrailing(s: string, lo: nat, j: nat): (n: nat)
    requires lo <= j <= |s|
    ensures lo <= n <= j
    ensures forall k :: n <= k < j ==> IsWhitespace(s[k])
    ensures n == lo || !IsWhitespace(s[n - 1])
  {
    if j > lo && IsWhitespace(s[j - 1]) then SkipTrailing(s, lo, j - 1) else j
  }

  /** `s.trim()`: whitespace removed from both ends. */
  function Trim(s: string): (r: string)
    ensures r == [] <==> AllWhitespace(s)
    ensures r == [] || (!IsWhitespace(r[0]) && !IsWhitespace(r[|r| - 1]))
    ensures |r| <= |s|
  {
    var a := SkipLeading(s, 0);
    s[a..SkipTrailing(s, a, |s|)]
  }

  /** What `trim` keeps is one contiguous slice of the input, and everything
      it drops on either side of that slice is whitespace. */
  lemma TrimIsSlice(s: string)
    ensures exists a ::
              && 0 <= a <= a + |Trim(s)| <= |s|
              && Trim(s) == s[a..a + |Trim(s)|]
              && AllWhitespace(s[..a])
              && AllWhitespace(s[a + |Trim(s)|..])
  {
    var a := SkipLeading(s, 0);
    var b := SkipTrailing(s, a, |s|);
    assert Trim(s) == s[a..b];
    assert AllWhitespace(s[..a]) by {
      forall k | 0 <= k < a ensures IsWhitespace(s[..a][k]) { assert s[..a][k] == s[k]; }
    }
    assert AllWhitespace(s[b..]) by {
      forall k | 0 <= k < |s| - b ensures IsWhitespace(s[b..][k]) { assert s[b..][k] == s[b + k]; }
    }
  }

  /** A string that neither starts nor ends with whitespace is unchanged by
      `trim`. */
  lemma TrimOfTrimmed(s: string)
    requires s == [] || (!IsWhitespace(s[0]) && !IsWhitespace(s[|s| - 1]))
    ensures Trim(s) == s
  {
    assert SkipLeading(s, 0) == 0;
    assert SkipTrailing(s, 0, |s|) == |s|;
  }

  /** Trimming twice is trimming once. */
  lemma TrimIdempotent(s: string)
    ensures Trim(Trim(s)) == Trim(s)
  {
    TrimOfTrimmed(Trim(s));
  }

  function LowerChar(c: char): (r: char)
    ensures !('A' <= r <= 'Z')
    ensures IsWhitespace(r) == IsWhitespace(c)
  {
    if 'A' <= c <= 'Z' then (c as int + 32) as char else c
  }

  /** `s.toLowerCase()` restricted to the ASCII letters. */
  function ToLower(s: string): (r: string)
    ensures |r| == |s|
    ensures forall i :: 0 <= i < |r| ==> r[i] == LowerChar(s[i])
    ensures forall i :: 0 <= i < |r| ==> !('A' <= r[i] <= 'Z')
  {
    seq(|s|, i requires 0 <= i < |s| => LowerChar(s[i]))
  }

  /** Lower-casing is idempotent, so testing a lower-cased message for a
      lower-case needle does not depend on how often it was lowered. */
  lemma ToLowerIdempotent(s: string)
    ensures ToLower(ToLower(s)) == ToLower(s)
  {
    ToLowerOfLower(ToLower(s));
  }

  /** A string without upper-case letters is its own lower-case form. */
  lemma ToLowerOfLower(s: string)
    requires forall i :: 0 <= i < |s| ==> !('A' <= s[i] <= 'Z')
    ensures ToLower(s) == s
  {
    var r := ToLower(s);
    forall i | 0 <= i < |s| ensures r[i] == s[i] {
      assert r[i] == LowerChar(s[i]);
    }
  }

  predicate StartsWith(s: string, prefix: string) {
    |prefix| <= |s| && s[..|prefix|] == prefix
  }

  /** The declarative reading of `s.includes(sub)`. */
  ghost predicate OccursAt(s: string, sub: string, i: int) {
    0 <= i && i + |sub| <= |s| && s[i..i + |sub|] == sub
  }

  /** `s.includes(sub)`, computed by scanning from the left. */
  predicate Contains(s: string, sub: string)
    decreases |s|
  {
    StartsWith(s, sub) || (|s| > 0 && Contains(s[1..], sub))
  }

  /** An occurrence at position `i` is found by the scan. */
  lemma {:induction false} ContainsFromOccurrence(s: string, sub: string, i: int)
    requires OccursAt(s, sub, i)
    ensures Contains(s, sub)
    decreases i
  {
    if i > 0 {
      assert s[1..][i - 1..i - 1 + |sub|] == s[i..i + |sub|];
      ContainsFromOccurrence(s[1..], sub, i - 1);
    }
  }

  /** The scan finds `sub` only where it occurs. */
  lemma {:induction false} OccurrenceFromContains(s: string, sub: string) returns (i: int)
    requires Contains(s, sub)
    ensures OccursAt(s, sub, i)
    decreases |s|
  {
    if StartsWith(s, sub) {
      i := 0;
    } else {
      var k := OccurrenceFromContains(s[1..], sub);
      assert s[1..][k..k + |sub|] == s[k + 1..k + 1 + |sub|];
      i := k + 1;
    }
  }

  /** The scan finds `sub` exactly when it occurs at some position. */
  lemma ContainsIff(s: string, sub: string)
    ensures Contains(s, sub) <==> exists i :: OccursAt(s, sub, i)
  {
    if Contains(s, sub) {
      var i := OccurrenceFromContains(s, sub);
    }
    forall i | OccursAt(s, sub, i) ensures Contains(s, sub) {
      ContainsFromOccurrence(s, sub, i);
    }
  }

  /** A string contains its own prefix, middle and suffix pieces. */
  lemma {:induction false} ContainsConcat(a: string, sub: string, b: string)
    ensures Contains(a + sub + b, sub)
  {
    var s := a + sub + b;
    assert s[|a|..|a| + |sub|] == sub;
    ContainsFromOccurrence(s, sub, |a|);
  }

  /** The first index of `x` in `s`, as `s.indexOf(x)` and
      `Array.prototype.find` scan for it. */
  function IndexOf<T(==)>(s: seq<T>, x: T): (r: Option<nat>)
    ensures r.None? <==> x !in s
    ensures r.Some? ==> r.value < |s| && s[r.value] == x
    ensures r.Some? ==> forall j :: 0 <= j < r.value ==> s[j] != x
  {
    if |s| == 0 then None
    else if s[0] == x then Some(0)
    else
      match IndexOf(s[1..], x)
      case None => None
      case Some(k) => Some(k + 1)
  }

  /** `s.split(' ')[1]`: the field between the first and the second
      space, or `undefined` when `s` has no space at all. */
  function SecondField(s: string): (r: Option<string>)
    ensures r.None? <==> ' ' !in s
    ensures r.Some? ==> ' ' !in r.value
  {
    match IndexOf(s, ' ')
    case None => None
    case Some(i) =>
      var rest := s[i + 1..];
      match IndexOf(rest, ' ')
      case None => Some(rest)
      case Some(j) => Some(rest[..j])
  }

  /** Splitting `word + " " + field` recovers `field` whenever neither part
      holds a space: the inverse of building a two-word header. */
  lemma SecondFieldOfJoin(word: string, field: string)
    requires ' ' !in word && ' ' !in field
    ensures SecondField(word + " " + field) == Some(field)
  {
    var s := word + " " + field;
    assert s[|word|] == ' ';
    assert s[..|word|] == word;
    assert IndexOf(s, ' ') == Some(|word|);
    assert s[|word| + 1..] == field;
  }

  /** Decimal rendering of a natural number, without leading zeros. */
  function NatToString(n: nat): (r: string)
    ensures |r| > 0
    ensures forall i :: 0 <= i < |r| ==> '0' <= r[i] <= '9'
    ensures |r| > 1 ==> r[0] != '0'
  {
    if n < 10 then [DigitChar(n)] else NatToString(n / 10) + [DigitChar(n % 10)]
  }

  function DigitChar(d: nat): (c: char)
    requires d < 10
    ensures '0' <= c <= '9'
  {
    ('0' as int + d) as char
  }

  predicate AllDigits(s: string) {
    forall i :: 0 <= i < |s| ==> '0' <= s[i] <= '9'
  }

  /** The value of a string of decimal digits. */
  function DigitsValue(s: string): nat
    requires AllDigits(s)
  {
    if |s| == 0 then 0
    else DigitsValue(s[..|s| - 1]) * 10 + ((s[|s| - 1] as int) - ('0' as int))
  }

  /** `String(i)` for an integer. */
  function IntToString(i: int): (r: string)
    ensures |r| > 0
    ensures i >= 0 ==> r == NatToString(i)
    ensures i < 0 ==> r[0] == '-'
  {
    if i < 0 then "-" + NatToString(-i) else NatToString(i)
  }

  /** Reading back a rendered number gives the number: the rendering loses
      nothing. */
  lemma {:induction false} NatToStringRoundTrip(n: nat)
    ensures DigitsValue(NatToString(n)) == n
    decreases n
  {
    var s := NatToString(n);
    if n >= 10 {
      NatToStringRoundTrip(n / 10);
      assert s[..|s| - 1] == NatToString(n / 10);
    }
  }

  /** Distinct numbers render differently. */
  lemma NatToStringInjective(m: nat, n: nat)
    requires NatToString(m) == NatToString(n)
    ensures m == n
  {
    NatToStringRoundTrip(m);
    NatToStringRoundTrip(n);
  }
}

=== FILE: user_controller.dfy ===
/** backend/controllers/userController.js: token issuance, registration,
    login and the profile lookup, each a function from the user collection
    and the request to the new collection and the handler's `Outcome`. */
module UserController {
  import opened Wrappers
  import opened Json
  import opened Server
  import opened UserModel
  import Crypto

  /** `expiresIn: '1m'`, in seconds. */
  const TokenLifetime := 60

  const SecretMissing := "Server configuration error: JWT secret missing."
  const RegisterFieldsMissing := "Please provide username, email, and password"
  const EmailTaken := "User already exists with this email"
  const LoginFieldsMissing := "Please provide email and password"
  const InvalidCredentials := "Invalid username or password"
  const UserNotFound := "User not found"

  predicate SecretSet(env: Env) {
    env.jwtSecret.Some? && env.jwtSecret.value != ""
  }

  /** `generateToken(id)` at `nowMs`: throws when the secret is unset or
      empty, and otherwise signs a payload holding just `id` that verifies
      to `id` for one minute and never after. */
  function GenerateToken(c: Crypto.Primitives, env: Env, id: Id, nowMs: nat): (r: UserModel.Result<string, JsError>)
    requires Crypto.Sound(c)
    ensures r.Failure? <==> !SecretSet(env)
    ensures r.Failure? ==> r.error == PlainError(SecretMissing)
    ensures r.Success? ==> r.value != "" && ' ' !in r.value
    ensures r.Success? ==> forall t :: Crypto.Seconds(nowMs) <= t ==>
      c.verify(r.value, env.jwtSecret.value, t)
      == if t < Crypto.Seconds(nowMs) + TokenLifetime then Some(id) else None
  {
    if !SecretSet(env) then Failure(PlainError(SecretMissing))
    else Success(c.sign(id, env.jwtSecret.value, Crypto.Seconds(nowMs), TokenLifetime))
  }

  /** The collection after a handler ran, and the handler's outcome. */
  datatype Step = Step(users: map<Id, User>, outcome: Outcome)

  /** The fields of a successful registration response. */
  const RegisterKeys: set<string> := {"_id", "username", "email", "token", "createdAt", "updatedAt"}

  /** The registration response: the public fields and the token, and
      neither the password nor the role. */
  function RegisterBody(u: User, token: string): (o: Object)
    ensures o.Keys == RegisterKeys
    ensures o["_id"] == JStr(u.id) && o["token"] == JStr(token)
  {
    map[
      "_id" := JStr(u.id),
      "username" := JStr(u.username),
      "email" := JStr(u.email),
      "token" := JStr(token),
      "createdAt" := JNum(u.createdAt),
      "updatedAt" := JNum(u.updatedAt)]
  }

  /** The last part of `registerUser`: the validated user `u` is stored,
      and only then is its token generated, after `res.status(201)`; so a
      missing secret leaves the new user stored but reaches the client as
      a 500. */
  function Admit(c: Crypto.Primitives, env: Env, users: map<Id, User>, u: User, nowMs: nat): (r: Step)
    requires Crypto.Sound(c) && Consistent(users)
    requires u.id !in users && forall k :: k in users ==> users[k].email != u.email
    ensures Consistent(r.users) && r.users == users[u.id := u]
    ensures r.outcome.Raised? <==> !SecretSet(env)
    ensures r.outcome.Raised? ==> r.outcome == Raised(201, PlainError(SecretMissing))
    ensures r.outcome.Sent? ==>
      && SecretSet(env)
      && r.outcome == Sent(201, JObj(RegisterBody(u, GenerateToken(c, env, u.id, nowMs).value)))
  {
    var users' := users[u.id := u];
    assert Consistent(users');
    match GenerateToken(c, env, u.id, nowMs)
    case Failure(e) => Step(users', Raised(201, e))
    case Success(token) => Step(users', Sent(201, JObj(RegisterBody(u, token))))
  }

  /** `registerUser` for `req.body == body`; `newId` is the `_id` MongoDB
      assigns, `salt` the one bcrypt draws. */
  function RegisterUser(c: Crypto.Primitives, env: Env, users: map<Id, User>, body: Body,
                        newId: Id, salt: string, nowMs: nat): (r: Step)
    requires Crypto.Sound(c) && Consistent(users)
    ensures Consistent(r.users)
    ensures !(Present(body, "username") && Present(body, "email") && Present(body, "password")) ==>
      r == Step(users, Raised(400, PlainError(RegisterFieldsMissing)))
    ensures r.outcome == Raised(400, PlainError(RegisterFieldsMissing)) ==>
      !(Present(body, "username") && Present(body, "email") && Present(body, "password"))
    ensures Present(body, "email") && FindByEmail(users, body["email"]).Some? ==>
      r.users == users && r.outcome.Raised? && r.outcome.status == 400
    ensures Present(body, "username") && Present(body, "email") && Present(body, "password")
            && FindByEmail(users, body["email"]).Some? ==>
      r == Step(users, Raised(400, PlainError(EmailTaken)))
    ensures Present(body, "username") && Present(body, "email") && Present(body, "password")
            && FindByEmail(users, body["email"]).None?
            && Validate(body["username"], body["email"], body["password"]) != [] ==>
      && r == Step(users, Raised(200, ValidationError("User", Validate(body["username"], body["email"], body["password"]))))
      && Finish(r.outcome, env).status == 400
    ensures Present(body, "username") && Present(body, "email") && Present(body, "password")
            && FindByEmail(users, body["email"]).None?
            && Validate(body["username"], body["email"], body["password"]) == [] && newId in users ==>
      r == Step(users, Raised(200, DuplicateKeyError("_id", newId)))
    ensures r.users != users ==>
      && Validate(body["username"], body["email"], body["password"]) == []
      && newId !in users && newId in r.users
      && r.users == users[newId := r.users[newId]]
      && r.users[newId].email == NormalizeEmail(body["email"])
      && r.users[newId].role == UserRole
      && MatchPassword(c, r.users[newId], body["password"])
    ensures r.outcome.Sent? ==>
      && r.users != users
      && r.outcome.status == 201
      && r.outcome.body.JObj?
      && r.outcome.body.fields.Keys == RegisterKeys
      && r.outcome.body.fields["_id"] == JStr(newId)
      && r.outcome.body.fields["token"].JStr?
      && SecretSet(env)
      && c.verify(r.outcome.body.fields["token"].s, env.jwtSecret.value, Crypto.Seconds(nowMs))
         == Some(newId)
  {
    if !(Present(body, "username") && Present(body, "email") && Present(body, "password")) then
      Step(users, Raised(400, PlainError(RegisterFieldsMissing)))
    else if FindByEmail(users, body["email"]).Some? then
      Step(users, Raised(400, PlainError(EmailTaken)))
    else
      match UserModel.Create(c, newId, body["username"], body["email"], body["password"], salt, nowMs)
      case Failure(errs) => Step(users, Raised(200, ValidationError("User", errs)))
      case Success(u) =>
        if newId in users then Step(users, Raised(200, DuplicateKeyError("_id", newId)))
        else Admit(c, env, users, u, nowMs)
  }

  /** The fields of a successful login response. */
  const LoginKeys: set<string> := {"_id", "username", "email", "role", "token", "createdAt", "updatedAt"}

  /** The login response: the public fields, the role and the token. */
  function LoginBody(u: User, token: string): (o: Object)
    ensures o.Keys == LoginKeys
    ensures o["_id"] == JStr(u.id) && o["token"] == JStr(token)
    ensures o["role"] == JStr(RoleName(u.role)) && o["username"] == JStr(u.username)
  {
    map[
      "_id" := JStr(u.id),
      "username" := JStr(u.username),
      "email" := JStr(u.email),
      "role" := JStr(RoleName(u.role)),
      "token" := JStr(token),
      "createdAt" := JNum(u.createdAt),
      "updatedAt" := JNum(u.updatedAt)]
  }

  /** `loginUser` for `req.body == body`. It changes nothing stored. */
  function LoginUser(c: Crypto.Primitives, env: Env, users: map<Id, User>, body: Body, nowMs: nat): (r: Outcome)
    requires Crypto.Sound(c) && Consistent(users)
    ensures !(Present(body, "email") && Present(body, "password")) ==>
      r == Raised(400, PlainError(LoginFieldsMissing))
    ensures Present(body, "email") && Present(body, "password") ==>
      var found := FindByEmail(users, body["email"]);
      (found.None? || !MatchPassword(c, found.value, body["password"])) ==>
        r == Raised(401, PlainError(InvalidCredentials))
    ensures Present(body, "email") && Present(body, "password") ==>
      var found := FindByEmail(users, body["email"]);
      (found.Some? && MatchPassword(c, found.value, body["password"])) ==>
        (r.Sent? <==> SecretSet(env)) && (r.Raised? ==> r == Raised(200, PlainError(SecretMissing)))
    ensures r.Sent? ==>
      && Present(body, "email") && Present(body, "password")
      && var u := FindByEmail(users, body["email"]).value;
      && MatchPassword(c, u, body["password"])
      && r.status == 200
      && r.body.JObj?
      && r.body.fields.Keys == LoginKeys
      && r.body.fields["_id"] == JStr(u.id)
      && r.body.fields["role"] == JStr(RoleName(u.role))
      && r.body.fields["username"] == JStr(u.username)
      && r.body.fields["token"].JStr?
      && SecretSet(env)
      && c.verify(r.body.fields["token"].s, env.jwtSecret.value, Crypto.Seconds(nowMs)) == Some(u.id)
  {
    if !(Present(body, "email") && Present(body, "password")) then
      Raised(400, PlainError(LoginFieldsMissing))
    else
      match FindByEmail(users, body["email"])
      case Some(u) =>
        if MatchPassword(c, u, body["password"]) then
          match GenerateToken(c, env, u.id, nowMs)
          case Failure(e) => Raised(200, e)
          case Success(token) => Sent(200, JObj(LoginBody(u, token)))
        else Raised(401, PlainError(InvalidCredentials))
      case None => Raised(401, PlainError(InvalidCredentials))
  }

  /** `getUserProfile` for the authenticated user `actor`. */
  function GetUserProfile(users: map<Id, User>, actor: Id): (r: Outcome)
    ensures actor !in users <==> r == Raised(404, PlainError(UserNotFound))
    ensures actor in users ==>
      && r.Sent? && r.status == 200 && r.body.JObj?
      && "password" !in r.body.fields
      && r.body.fields == ToJson(users[actor], false)
  {
    if actor in users then Sent(200, JObj(ToJson(users[actor], false)))
    else Raised(404, PlainError(UserNotFound))
  }

  /** An unknown address and a wrong password are indistinguishable to the
      client: both reach it as the same 401 response. */
  lemma {:induction false} NoUserEnumeration(c: Crypto.Primitives, env: Env, users: map<Id, User>,
                                            unknown: Body, wrong: Body, nowMs: nat)
    requires Crypto.Sound(c) && Consistent(users)
    requires Present(unknown, "email") && Present(unknown, "password")
    requires FindByEmail(users, unknown["email"]).None?
    requires Present(wrong, "email") && Present(wrong, "password")
    requires FindByEmail(users, wrong["email"]).Some?
    requires !MatchPassword(c, FindByEmail(users, wrong["email"]).value, wrong["password"])
    ensures Finish(LoginUser(c, env, users, unknown, nowMs), env)
         == Finish(LoginUser(c, env, users, wrong, nowMs), env)
    ensures Finish(LoginUser(c, env, users, unknown, nowMs), env).status == 401
  {
    RaisedStatusKept(InvalidCredentials, 401, env);
  }

  /** Registering and then logging in with the same credentials, written
      in any letter case, succeeds and yields a token for the new user
      with the default role. */
  lemma {:induction false} RegisterThenLogin(c: Crypto.Primitives, env: Env, users: map<Id, User>, body: Body,
                                            newId: Id, salt: string, t0: nat, t1: nat, loginEmail: string)
    requires Crypto.Sound(c) && Consistent(users)
    requires RegisterUser(c, env, users, body, newId, salt, t0).outcome.Sent?
    requires NormalizeEmail(loginEmail) == NormalizeEmail(body["email"]) && loginEmail != ""
    ensures var r := RegisterUser(c, env, users, body, newId, salt, t0);
            var login := LoginUser(c, env, r.users, map["email" := loginEmail, "password" := body["password"]], t1);
            && login.Sent?
            && login.body.fields["_id"] == JStr(newId)
            && login.body.fields["role"] == JStr("user")
  {
    var r := RegisterUser(c, env, users, body, newId, salt, t0);
    assert r.users != users && SecretSet(env);
    var u := r.users[newId];
    var lb: Body := map["email" := loginEmail, "password" := body["password"]];
    FindStored(r.users, newId, loginEmail);
    LoginSucceeds(c, env, r.users, u, lb, t1);
  }

  /** A registration whose fields are present and pass the schema, under
      a fresh address and id and with the secret set, is answered 201. */
  lemma RegisterSucceeds(c: Crypto.Primitives, env: Env, users: map<Id, User>, body: Body,
                         newId: Id, salt: string, nowMs: nat)
    requires Crypto.Sound(c) && Consistent(users) && SecretSet(env)
    requires Present(body, "username") && Present(body, "email") && Present(body, "password")
    requires Validate(body["username"], body["email"], body["password"]) == []
    requires FindByEmail(users, body["email"]).None? && newId !in users
    ensures var r := RegisterUser(c, env, users, body, newId, salt, nowMs);
      r.outcome.Sent? && r.outcome.status == 201 && newId in r.users
  {
  }

  /** Login with a stored address and its password, with the secret set,
      answers 200 with that user's id and role. */
  lemma LoginSucceeds(c: Crypto.Primitives, env: Env, users: map<Id, User>, u: User, lb: Body, nowMs: nat)
    requires Crypto.Sound(c) && Consistent(users) && SecretSet(env)
    requires Present(lb, "email") && Present(lb, "password")
    requires FindByEmail(users, lb["email"]) == Some(u) && MatchPassword(c, u, lb["password"])
    ensures var login := LoginUser(c, env, users, lb, nowMs);
            && login.Sent?
            && login.body.fields["_id"] == JStr(u.id)
            && login.body.fields["role"] == JStr(RoleName(u.role))
  {
  }

  /** In a consistent collection, looking up any spelling of a stored
      address finds that user. */
  lemma FindStored(users: map<Id, User>, id: Id, email: string)
    requires Consistent(users) && id in users
    requires users[id].email == NormalizeEmail(email)
    ensures FindByEmail(users, email) == Some(users[id])
  {
  }
}

=== FILE: user_model.dfy ===
/** The Mongoose `User` schema of backend/models/User.js: the setters that
    normalise fields, the validators, the role enumeration, the pre-save
    hashing hook and `matchPassword`. */
module UserModel {
  import opened Wrappers
  import opened Text
  import opened Json
  import Crypto

  type Id = string

  datatype Role = UserRole | AdminRole

  function RoleName(r: Role): string {
    match r
    case UserRole => "user"
    case AdminRole => "admin"
  }

  /** The `enum: ['user', 'admin']` validator, read as a parser. */
  function ParseRole(s: string): (r: Option<Role>)
    ensures r.Some? <==> s == "user" || s == "admin"
  {
    if s == "user" then Some(UserRole)
    else if s == "admin" then Some(AdminRole)
    else None
  }

  /** Every role is stored under a name the enumeration accepts, and reads
      back as itself. */
  lemma RoleRoundTrip(r: Role)
    ensures ParseRole(RoleName(r)) == Some(r)
    ensures RoleName(r) == "user" || RoleName(r) == "admin"
  {
  }

  const DefaultRole := UserRole

  /** A stored user document. `password` holds the bcrypt hash once saved. */
  datatype User = User(
    id: Id,
    username: string,
    email: string,
    password: string,
    role: Role,
    createdAt: int,
    updatedAt: int)

  /** The `lowercase` and `trim` setters on `email`; Mongoose applies them
      when a document is built and when a query filter on `email` is cast. */
  function NormalizeEmail(e: string): (r: string)
    ensures |r| <= |e|
    ensures forall i :: 0 <= i < |r| ==> !('A' <= r[i] <= 'Z')
    ensures r == [] || (!IsWhitespace(r[0]) && !IsWhitespace(r[|r| - 1]))
  {
    ToLower(Trim(e))
  }

  /** Normalising an already stored email changes nothing, so looking a
      stored address up again finds it. */
  lemma NormalizeEmailIdempotent(e: string)
    ensures NormalizeEmail(NormalizeEmail(e)) == NormalizeEmail(e)
  {
    NormalFormFixed(NormalizeEmail(e));
  }

  /** A trimmed lower-case string is already in normal form. */
  lemma NormalFormFixed(n: string)
    requires forall i :: 0 <= i < |n| ==> !('A' <= n[i] <= 'Z')
    requires n == [] || (!IsWhitespace(n[0]) && !IsWhitespace(n[|n| - 1]))
    ensures NormalizeEmail(n) == n
  {
    TrimOfTrimmed(n);
    assert Trim(n) == n;
    ToLowerOfLower(n);
    assert NormalizeEmail(n) == ToLower(n);
  }

  // ---- The address pattern /^\w+([\.-]?\w+)*@\w+([\.-]?\w+)*(\.\w{2,3})+$/ ----

  predicate WordChar(c: char) {
    ('a' <= c <= 'z') || ('A' <= c <= 'Z') || ('0' <= c <= '9') || c == '_'
  }

  predicate Separator(c: char) {
    c == '.' || c == '-'
  }

  /** `\w+([\.-]?\w+)*`: word characters with single dots or dashes
      between them, never at either end and never two in a row. */
  predicate WordSequence(s: string) {
    && |s| > 0
    && WordChar(s[0])
    && WordChar(s[|s| - 1])
    && (forall i :: 0 <= i < |s| ==> WordChar(s[i]) || Separator(s[i]))
    && (forall i :: 0 <= i < |s| - 1 ==> !(Separator(s[i]) && Separator(s[i + 1])))
  }

  /** The number of word characters at the end of `s`. */
  function TrailingWordChars(s: string): (k: nat)
    ensures k <= |s|
    ensures forall i :: |s| - k <= i < |s| ==> WordChar(s[i])
    ensures k < |s| ==> !WordChar(s[|s| - k - 1])
  {
    if |s| == 0 || !WordChar(s[|s| - 1]) then 0
    else TrailingWordChars(s[..|s| - 1]) + 1
  }

  /** `\w+([\.-]?\w+)*(\.\w{2,3})+`: such a string matches exactly when it
      is a word sequence whose last run has two or three characters and
      follows a dot (the earlier `.xx` groups can always be read as part of
      the first group instead). */
  predicate DomainPart(s: string) {
    && WordSequence(s)
    && var k := TrailingWordChars(s);
       2 <= k <= 3 && k < |s| && s[|s| - k - 1] == '.'
  }

  /** The `match` validator's pattern. Neither part may contain '@', so the
      split falls at the first '@'. */
  predicate ValidEmail(s: string) {
    match IndexOf(s, '@')
    case None => false
    case Some(i) => WordSequence(s[..i]) && DomainPart(s[i + 1..])
  }

  /** An address holding a second '@' never matches. */
  lemma TwoAtSignsInvalid(s: string, i: nat, j: nat)
    requires i < j < |s| && s[i] == '@' && s[j] == '@'
    ensures !ValidEmail(s)
  {
    match IndexOf(s, '@')
    case None =>
    case Some(k) =>
      assert k <= i;
      var rest := s[k + 1..];
      assert rest[j - k - 1] == '@';
      assert !(WordChar('@') || Separator('@'));
  }

  const MinPasswordLength := 6

  const NameRequired := "Please provide a name"
  const EmailRequired := "Please provide an email"
  const EmailInvalid := "Please provide a valid email address"
  const PasswordRequired := "Please provide a password"
  const PasswordTooShort := "Password must be at least 6 characters long"

  /** The messages of the failing validators, in schema order, for a new
      user built from raw `username`, `email` and `password` (setters run
      before validators; a failing `required` hides the path's other
      validators). */
  function Validate(username: string, email: string, password: string): (errs: seq<string>)
    ensures errs == [] <==>
      Trim(username) != "" && ValidEmail(NormalizeEmail(email)) && |password| >= MinPasswordLength
    ensures 0 < |password| < MinPasswordLength ==> PasswordTooShort in errs
    ensures NormalizeEmail(email) != "" && !ValidEmail(NormalizeEmail(email)) ==> EmailInvalid in errs
    ensures |errs| <= 3
  {
    var e := NormalizeEmail(email);
    var nameErr := if Trim(username) == "" then [NameRequired] else [];
    var emailErr :=
      if e == "" then [EmailRequired]
      else if !ValidEmail(e) then [EmailInvalid]
      else [];
    var passErr :=
      if password == "" then [PasswordRequired]
      else if |password| < MinPasswordLength then [PasswordTooShort]
      else [];
    assert e == "" ==> !ValidEmail(e);
    nameErr + emailErr + passErr
  }

  /** The pre-save hook: the password is hashed only when it was modified,
      that is, when `password` holds a new plaintext. */
  function PreSave(c: Crypto.Primitives, u: User, passwordModified: bool, salt: string): (r: User)
    requires Crypto.Sound(c)
    ensures !passwordModified ==> r == u
    ensures passwordModified ==> r == u.(password := r.password) && MatchPassword(c, r, u.password)
  {
    if passwordModified then u.(password := c.hash(u.password, salt)) else u
  }

  /** `user.matchPassword(entered)` */
  predicate MatchPassword(c: Crypto.Primitives, u: User, entered: string) {
    c.compare(entered, u.password)
  }

  /** Saving again without touching the password keeps the hash, so the
      password set before still matches: no double hashing. */
  lemma {:induction false} NoDoubleHashing(c: Crypto.Primitives, u: User, plain: string, salt: string, saves: seq<string>)
    requires Crypto.Sound(c)
    ensures var first := PreSave(c, u.(password := plain), true, salt);
            var last := SaveRepeatedly(c, first, saves);
            last.password == c.hash(plain, salt) && MatchPassword(c, last, plain)
    decreases |saves|
  {
    var first := PreSave(c, u.(password := plain), true, salt);
    SaveRepeatedlyKeeps(c, first, saves);
  }

  /** Further saves that leave the password unmodified. */
  function SaveRepeatedly(c: Crypto.Primitives, u: User, salts: seq<string>): User
    requires Crypto.Sound(c)
    decreases |salts|
  {
    if |salts| == 0 then u else SaveRepeatedly(c, PreSave(c, u, false, salts[0]), salts[1..])
  }

  lemma {:induction false} SaveRepeatedlyKeeps(c: Crypto.Primitives, u: User, salts: seq<string>)
    requires Crypto.Sound(c)
    ensures SaveRepeatedly(c, u, salts) == u
    decreases |salts|
  {
    if |salts| > 0 {
      SaveRepeatedlyKeeps(c, PreSave(c, u, false, salts[0]), salts[1..]);
    }
  }

  /** `User.create({ username, email, password })` with `_id` `id` at time
      `now`: validation first, then the pre-save hook on a new document
      (whose password counts as modified). */
  function Create(c: Crypto.Primitives, id: Id, username: string, email: string, password: string,
                  salt: string, now: int): (r: Result<User, seq<string>>)
    requires Crypto.Sound(c)
    ensures r.Failure? <==> Validate(username, email, password) != []
    ensures r.Failure? ==> r.error == Validate(username, email, password)
    ensures r.Success? ==>
      && r.value.id == id
      && r.value.username == Trim(username)
      && r.value.email == NormalizeEmail(email)
      && ValidEmail(r.value.email)
      && r.value.role == DefaultRole
      && r.value.createdAt == now == r.value.updatedAt
      && MatchPassword(c, r.value, password)
  {
    var errs := Validate(username, email, password);
    if errs != [] then Failure(errs)
    else
      var draft := User(id, Trim(username), NormalizeEmail(email), password, DefaultRole, now, now);
      Success(PreSave(c, draft, true, salt))
  }

  datatype Result<+T, +E> = Success(value: T) | Failure(error: E)

  /** A user document as JSON; `password` is present only when the query
      selected it (`select: false`). */
  function ToJson(u: User, withPassword: bool): (r: Object)
    ensures ("password" in r) <==> withPassword
    ensures "_id" in r && r["_id"] == JStr(u.id)
    ensures "role" in r && (r["role"] == JStr("user") || r["role"] == JStr("admin"))
  {
    var base := map[
      "_id" := JStr(u.id),
      "username" := JStr(u.username),
      "email" := JStr(u.email),
      "role" := JStr(RoleName(u.role)),
      "createdAt" := JNum(u.createdAt),
      "updatedAt" := JNum(u.updatedAt)];
    if withPassword then base["password" := JStr(u.password)] else base
  }

  /** The collection's invariants: each user is stored under its own `_id`,
      and the unique index on `email` holds. */
  ghost predicate Consistent(users: map<Id, User>) {
    && (forall k :: k in users ==> users[k].id == k)
    && (forall k, k' :: k in users && k' in users && users[k].email == users[k'].email ==> k == k')
  }

  /** `User.findOne({ email })`: the filter is cast through the same
      setters, so the lookup ignores case and surrounding whitespace. */
  function FindByEmail(users: map<Id, User>, email: string): (r: Option<User>)
    requires Consistent(users)
    ensures r.Some? ==> r.value.id in users && users[r.value.id] == r.value
                        && r.value.email == NormalizeEmail(email)
    ensures r.None? ==> forall k :: k in users ==> users[k].email != NormalizeEmail(email)
  {
    var e := NormalizeEmail(email);
    if exists k :: k in users && users[k].email == e && users[k].id == k then
      var k :| k in users && users[k].email == e && users[k].id == k;
      Some(users[k])
    else None
  }
}

=== FILE: wrappers.dfy ===
/** Optional values: the model's rendering of JavaScript's `undefined` for a
    field that may be absent, and of a lookup that may find nothing. */
module Wrappers {

  datatype Option<+T> = None | Some(value: T) {

    /** The value, or `default` when absent (JavaScript's `x ?? d` and,
        for values that cannot be falsy, `x || d`). */
    function GetOr(default: T): T {
      match this
      case Some(v) => v
      case None => default
    }
  }

  /** `m[k]` when `k` is a key of `m`, `None` otherwise: a JavaScript
      property read or `getItem` that may find nothing. */
  function Lookup<K, V>(m: map<K, V>, k: K): (r: Option<V>)
    ensures r.Some? <==> k in m
    ensures r.Some? ==> r.value == m[k]
  {
    if k in m then Some(m[k]) else None
  }
}
